=== FILE: README.md ===
# Tuiny slideshow engine in Dafny

This project models the slideshow engine of the Tuiny widget toolkit (`slideshow.js`): the `Slideshow` controller and its transition effects `Slideshow.Fx.*`. The controller is an immutable `State` record. It holds each slide's display, z-index, opacity and offsets, the effect bound to each slide, the current slide, the `fxRunning` flag and the autoplay timers. Every operation of the controller is a pure transition function on that record.

Modules, following the structure of the source:

- `Navigation`: `findByString`, which resolves `first`, `last`, `previous` and `next` with circular wrap-around.
- `ClassOptions`: the `name:value` class-attribute tokens that `build` parses. It also holds JSON truthiness and property-key conversion, used for the effect lookup.
- `Geometry`: the clip grid of the matrix effects (`resize`, `rect`).
- `RevealOrder`: the identity reveal order (`matrixBase.sequence`) and the randomly sorted one (`matrixRandom.sequence`).
- `Styles`: slide styles and the style saved at build time.
- `MatrixFx`: the tiles, cursor and reveal order of `matrixBase` and `matrixRandom`.
- `Effects`: the effect registry and the `start`, `set` and complete/cancel handlers of every effect.
- `Slideshow`: `build`, `play`, `stop`, the interval helpers, `show`, `fxComplete`, timer ticks, and the frames and natural end of a running effect.
- `Arith` and `Wrappers`: division facts and `Option`.

The external world becomes explicit data or parameters:

- The DOM becomes per-slide fields.
- `getSize` becomes a `Size` parameter.
- `JSON.decode` becomes a parameter `string -> Option<Json>`, where `None` means the decoder threw.
- `Math.random` in the sort becomes the comparator answers `before`.
- Timers become a set of live timer ids.
- The MooTools animation loop becomes two events: `Step(now)`, one frame `fx.set(now)`, and `Finish`, the last frame followed by the `complete` and `chainComplete` handlers.

Behaviour of the code that the model keeps as written:

- `play` does not clear a running timer. A second `play` leaves the first timer firing, and nothing can stop it afterwards (`Slideshow.PlayTwiceLeaksTimer`).
- `show` does not skip a target that is already current. It fires `show` and restarts the effect (`Slideshow.ShowCurrentRestarts`). The slide is then both `previous` and `next`, so fade and crossFade leave it transparent (`Slideshow.ReshowFadesOut`), and a slide effect pushes it out of the box (`Slideshow.ReshowSlidesOut`).
- A numeric index is not range-checked and there is no clamping or wrapping policy. The model requires the index to be in range (`Slideshow.InRange`).
- `fxComplete` only hides the other slides. Restoring the saved style happens earlier, in `show`'s `reset`, before the effect starts.
- `matrixBase.start` compares two size objects by reference, so it always re-clips. It never rebuilds tiles when the slide's content changes.

## Model

| member | source | states |
|---|---|---|
| Navigation.Next | slideshow.js:219-225 | the successor is (i+1) mod n, so the last slide is followed by slide 0 |
| Navigation.Previous | slideshow.js:212-218 | the predecessor is (i+n-1) mod n, so slide 0 is preceded by slide n-1 |
| Navigation.FindByString | slideshow.js:200-228 | every name resolves to a slide in [0, n): first is 0, last is n-1, next and previous are the modular neighbours of the reference slide (`ref`, or else the current slide), and any other name gives the reference slide itself |
| Navigation.NextPreviousInverse | slideshow.js:212-225 | next and previous undo each other |
| Navigation.NextTimesIsModular | slideshow.js:219-225 | k steps of next from slide i land on (i+k) mod n |
| Navigation.NextCycle | slideshow.js:219-225 | n steps of next return to the starting slide |
| ClassOptions.Split | slideshow.js:256 | split on a one-character separator gives at least one part, no part contains the separator, and joining the parts with it gives back the string |
| ClassOptions.ParseToken | slideshow.js:260-261 | an accepted token has a non-empty name and a non-empty value, and neither contains a colon |
| ClassOptions.ParseTokenAccepts | slideshow.js:260-265 | every token name ':' value, followed by nothing or by a second colon and anything, yields exactly that name and value; what follows the second colon is dropped |
| ClassOptions.ParseTokenShape | slideshow.js:260-265 | conversely, a token that yields an entry is its name, a colon and its value, followed by its end or by another colon |
| ClassOptions.Collect | slideshow.js:255-272 | a name is among the slide's options exactly when some token binds it with a value that decodes, and it holds the value of the last such token |
| ClassOptions.FailedTokenSkipped | slideshow.js:263-270 | a token whose value fails to decode leaves the options as if it were absent; the failure is swallowed |
| ClassOptions.SingleTokenClass | slideshow.js:255-272 | a class attribute that is the single token name:value, with value decoding to v, gives exactly the options {name: v} |
| ClassOptions.ParseClass | slideshow.js:256-272 | a slide's options, from its class attribute split on spaces, hold a name exactly when some token binds it, with the value of the last such token |
| ClassOptions.Truthy | slideshow.js:287 | `options.fx ?` treats exactly null, false, 0 and the empty string as false |
| ClassOptions.PropertyKey | slideshow.js:287 | `Slideshow.Fx[options.fx]` looks up a string as itself and a one-element array of a string as that string; a number never names an effect |
| Geometry.Clips | slideshow.js:504-518 | resize produces one clip for each of the rows*cols tiles |
| Geometry.Cell | slideshow.js:520-527 | rect(i, j, w, h) spans x from i*w to (i+1)*w and y from j*h to (j+1)*h |
| Geometry.TileIndex | slideshow.js:510-515 | k = i*cols + j is a tile number below rows*cols, and k / cols and k mod cols give back i and j |
| Geometry.ClipOfTile | slideshow.js:504-527 | tile i*cols+j is clipped to x in [i*w, (i+1)*w] and y in [j*h, (j+1)*h], where w = width/rows and h = height/cols |
| Geometry.ClipWithinBox | slideshow.js:504-527 | in exact arithmetic, every clip lies inside [0, width] by [0, height] |
| Geometry.ClipsDisjoint | slideshow.js:504-527 | the clips of two different tiles have disjoint interiors |
| Geometry.ClipsCover | slideshow.js:504-527 | in exact arithmetic, every point of [0, width] by [0, height] lies in the clip of some tile |
| RevealOrder.Identity | slideshow.js:494-502 | matrixBase.sequence: rank k reveals tile k, for k below count |
| RevealOrder.OrderNamesEveryTile | slideshow.js:494-502 | a reveal order (same multiset as the identity) has length count, names only tiles below count, and names every such tile |
| RevealOrder.Insert | slideshow.js:540-545 | one insertion step of the sort, whatever the comparator answers, adds exactly the inserted element to the multiset |
| RevealOrder.CoinSort | slideshow.js:540-545 | sorting with arbitrary comparator answers preserves the multiset |
| RevealOrder.RandomSequence | slideshow.js:536-545 | matrixRandom.sequence returns a permutation of the identity order |
| MatrixFx.Init | slideshow.js:436-454 | initialize creates count = rows*cols tiles, all hidden and clipped to the grid of the slide's size |
| MatrixFx.Resize | slideshow.js:504-518 | every tile gets the grid clip for the new size, and no tile's display changes |
| MatrixFx.Sequence | slideshow.js:474 | the order drawn at start is a permutation of the tiles, and is the identity for matrixBase |
| MatrixFx.Start | slideshow.js:461-477 | start always re-clips the tiles to the measured size and records it, hides every tile, resets the cursor to 0 and takes the order sequence() returns for this run, so that tiles shown are exactly those ranked below the cursor |
| MatrixFx.Ceil | slideshow.js:481 | ceil(now) is the least integer not below now |
| MatrixFx.RevealRanks | slideshow.js:483-491 | after the reveal loop, a tile is displayed exactly when it was before or a rank in the processed range names it; clips are unchanged |
| MatrixFx.Set | slideshow.js:479-492 | set(now) moves the cursor to min(count, max(cursor, ceil(now)+1)) and only ever reveals tiles, namely those the passed ranks name |
| MatrixFx.SetKeepsRevealed | slideshow.js:479-492 | if the displayed tiles are exactly those ranked below the cursor, set keeps it so |
| MatrixFx.SetToEndRevealsAll | slideshow.js:475-492 | the frame at the run's end value count displays every tile |
| MatrixFx.BaseRevealsRowMajor | slideshow.js:474-502 | in a matrixBase run, after start and any frame, the displayed tiles are exactly those numbered below the cursor, so tiles appear in row-major order |
| MatrixFx.End | slideshow.js:529-533 | end hides every tile and changes nothing else of the effect |
| Effects.Registry | slideshow.js:287-289 | a name finds an effect class exactly when it is one of the nine registered names, and the class found is registered under that name |
| Effects.RegistryFindsEveryKind | slideshow.js:337-545 | every effect class is found under its own registered name |
| Effects.Create | slideshow.js:289-294 | the effect built for a slide is of the kind looked up; a matrix effect starts with rows*cols hidden tiles |
| Effects.DefaultGridTiles | slideshow.js:428-434 | creating a matrix effect with the default 8 by 6 grid gives 48 hidden tiles |
| Effects.Start | slideshow.js:341-477 | start touches only the outgoing and incoming slides; fade and slide put the outgoing slide at z-index 1 above the incoming one at 0; a slide effect measures its extent along its axis; a matrix effect hides the incoming slide, puts the outgoing one at z-index 0 and restarts its tiles hidden with cursor 0 |
| Effects.Apply | slideshow.js:350-492 | a frame never changes display or z-index; fade sets the outgoing opacity to now; crossFade sets the incoming opacity to now and the outgoing to 1-now, which sum to 1; a slide effect offsets the outgoing slide by maxValue*now, within [0, maxValue] for now in [0, 1]; a matrix frame keeps the revealed-prefix invariant |
| Effects.FinalFrame | slideshow.js:341-492 | the end values the start methods pass to parent (fade 0, matrix count, others 1) complete each effect: fade leaves the outgoing slide transparent, crossFade leaves it transparent and the incoming one opaque, a slide effect moves the outgoing slide by its full measured extent, and a matrix effect shows every tile |
| Effects.SlideExtents | slideshow.js:384-424 | slideUp and slideDown measure and move the outgoing slide by its height, slideLeft and slideRight by its width |
| Effects.End | slideshow.js:456-533 | the complete/cancel handlers of a matrix effect redisplay its slide and hide all tiles; other effects have none and change nothing |
| Slideshow.BoundKind | slideshow.js:287-289 | a falsy or missing fx option falls back to the default name; a non-empty string fx option is looked up as is; the result is always a registered class or none |
| Slideshow.Build | slideshow.js:242-307 | after build exactly slide 0 is displayed, every slide has z-index 0, slide 0 is current, no effect runs and no timer exists; each slide's effect exists exactly when its options name a registered class, and is of that class; a slide without an effect stores its parsed options, and a slide with one stores the merged fxOptions, because the hoisted `var options` was reassigned |
| Slideshow.Initialize | slideshow.js:70-80 | construction gives a valid state on slide 0 with one live timer and a 'play' event exactly when autoplay is set |
| Slideshow.SetInterval | slideshow.js:181-185 | a fresh timer is added to the live timers and recorded; earlier timers stay live |
| Slideshow.ClearInterval | slideshow.js:187-192 | the recorded timer stops and the record is emptied |
| Slideshow.ResetInterval | slideshow.js:194-198 | the recorded timer is replaced by a fresh one |
| Slideshow.Play | slideshow.js:91-96 | play adds and records a fresh timer and fires 'play'; nothing else changes and the invariant is kept |
| Slideshow.Stop | slideshow.js:107-112 | stop leaves no recorded timer, removes only the recorded one from the live timers and fires 'stop'; nothing else changes |
| Slideshow.PlayTwiceLeaksTimer | slideshow.js:91-112 | after play, play, stop, the first timer is still live while no timer is recorded |
| Slideshow.Resolve | slideshow.js:143-150 | every in-range target, and every name, resolved against the current slide, designates an existing slide |
| Slideshow.ResetTimer | slideshow.js:132-135 | the timer is reset exactly when one is recorded and the call is not from the timer; otherwise nothing changes |
| Slideshow.RunEnd | slideshow.js:137-141 | cancelling a matrix effect redisplays its slide and hides its tiles; other effects and slides are untouched |
| Slideshow.FxComplete | slideshow.js:230-240 | a slide is hidden afterwards exactly when it is not current or was already hidden; the current slide's style is untouched, only displays change, and fxRunning is false |
| Slideshow.CancelRunning | slideshow.js:137-141 | a running effect is cancelled and fxComplete runs before the current slide changes: afterwards no effect runs, only the still-current slide is displayed and no tile is |
| Slideshow.Retarget | slideshow.js:152-158 | the outgoing slide gets z-index 1, the target becomes current with its saved style restored, and 'show' fires with its index; other slides are untouched |
| Slideshow.Launch | slideshow.js:160-171 | the effect starts with the outgoing slide as previous and fxRunning set exactly when the target has an effect; otherwise fxComplete runs at once |
| Slideshow.Show | slideshow.js:130-173 | show keeps the invariant, makes the resolved target current and fires 'show' for it; it resets the timer only for calls not from the timer while one is recorded; it runs an effect exactly when the target has one, and then the outgoing slide is still displayed, because the old effect was cancelled and settled before the current slide changed; every slide other than the old and new current is hidden; with no effect the slides are settled at once with the target in its saved style; the target always gets its saved style back, except that a matrix effect hides the slide and restarts with every tile hidden and cursor 0 |
| Slideshow.Tick | slideshow.js:183 | a tick of any live timer, including a leaked one, advances to the next slide, keeps the invariant and never resets a timer |
| Slideshow.Step | slideshow.js:350-492 | a frame of the running effect keeps the invariant and every slide's display, and touches only the outgoing and current slides |
| Slideshow.Finish | slideshow.js:293 | when the effect completes, its own end handler and fxComplete settle the slides: no effect runs, only the current slide is displayed, no tile is, and timers and events are unchanged |
| Slideshow.ShowNextTimes | slideshow.js:219-225 | after k calls show('next') the current slide is k steps of next from the start, and the invariant holds |
| Slideshow.ShowNextCycle | slideshow.js:219-225 | n calls show('next') come back to the starting slide |
| Slideshow.ShowPreviousFromFirst | slideshow.js:212-218 | show('previous') from slide 0 lands on slide n-1 |
| Slideshow.ShowCurrentRestarts | slideshow.js:130-171 | showing the current slide is not skipped: 'show' fires, a running effect is cancelled, the slide gets its saved style back and its effect starts over, a matrix effect with every tile hidden and cursor 0 |
| Slideshow.ReshowFadesOut | slideshow.js:341-370 | re-showing the current slide with fade or crossFade passes it as both previous and next, so when the effect completes the slide is displayed but at opacity 0 |
| Slideshow.ReshowSlidesOut | slideshow.js:372-424 | re-showing the current slide with a slide effect moves that slide itself by its full measured width or height, so when the effect completes it is displayed outside the box |
| Slideshow.RemeasuredSlide | slideshow.js:384-394 | show restarts a slide effect with its extent measured again from the slides' current size |
| Slideshow.UnknownEffectCutsInstantly | slideshow.js:287-295 | a slide whose class is the token fx:value, with value decoding to a name the registry does not know, gets no effect, and showing it settles at once with that slide displayed in its saved style |

## Left out

- tuiny.js: frames, panels, windows, buttons, toolbars and tables are DOM construction and drag wiring with no engine logic.
- The MooTools `Fx` base class: duration, easing, frame timing and `link: 'cancel'`. A running effect is driven by the abstract events `Step(now)` and `Finish`, and `now` may be any real.
- Timer periods and real time: a timer is an id in `live`, and `Tick` is one firing.
- Slide and container styling that no operation reads: position, width, height, overflow and the added class name. The tiles' constant z-index 1 and their DOM placement are also left out.
- The saved style is the normalised style build gives every slide (displayed, z-index 0). Any inline style a slide had before build is not modelled.
- MooTools' `set('opacity')` also toggles `visibility`; only the opacity value is modelled.
- Object.merge of fxOptions: the grid each matrix effect reads from its merged options is the parameter `grids`. Its mutation of the shared default object is not modelled, and the stored merged options keep only the slide's own fxOptions value.
- JSON.decode is the parameter `decode`, and logging a failed decode is not modelled.
- ClassOptions.PropertyKey: a value containing a number converts to a key that is never modelled exactly. It is treated as naming no effect, which holds because no registered name contains a digit.
- Geometry, Effects: coordinates, opacities and offsets are exact reals. The source computes them in double precision (`size.x / rows`, `(i + 1) * w`, `1 - now`), where the last strip's edge can miss the box edge by one ulp.
- Geometry.ClipWithinBox, Geometry.ClipsCover: hold in exact arithmetic only. In doubles 29 / 7 * 7 exceeds 29, so the last clip can end just outside the box, and 15 / 11 * 11 falls short of 15, leaving a sliver uncovered.
- Effects.Grid: rows and cols are natural numbers. In the source a fractional value makes resize index a missing tile and throw, and a negative one gives no tiles.
- Effects.DefaultGridTiles: `grids` is a free parameter of build, so no contract ties a slide whose options set no rows or cols to the default grid.
- Effects.Registry: own and inherited members of the class object (`parent`, `prototype`, `implement`, …) are not modelled as registry entries. They count as unregistered names, although in the source `fx:"parent"` binds a bare `Fx` that runs for its duration and `fx:"prototype"` makes build throw.
- Slideshow.Show: requires the target slide not to be bound to the bare `slideBase` class. Its start reads a null direction and throws in the source.
- Slideshow.Show: requires a numeric index to name an existing slide. The source does not check it: an out-of-range index gives an undefined slide, and `reset` throws on it.
- Slideshow.Target: an element target is a slide position by construction. The source also accepts an element that is not one of the slides: `reset` gives it a null style, 'show' fires with index -1, and fxComplete then hides every slide, so none stays displayed. That case is not modelled.
- Slideshow.Valid: requires at least one slide. With an empty container, build leaves `current` undefined and every later `show` fails.
- The 'show', 'play' and 'stop' events are recorded in a log; observers are not modelled.
- RevealOrder.RandomSequence: promises only a permutation of the tiles. The source's order depends on the engine's sort algorithm, which the comparator-driven insertion here stands in for, and "different from the identity with high probability" is a probabilistic claim.

=== FILE: arith.dfy ===
/** Integer division facts shared by the slide rotation and the tile grid. */
module Arith {

  /** Euclidean division is unique: a = q*n + r with 0 <= r < n fixes q and r. */
  lemma DivModUnique(a: int, n: int, q: int, r: int)
    requires n > 0 && 0 <= r < n && a == q * n + r
    ensures a % n == r && a / n == q
  {
    var q0, r0 := a / n, a % n;
    assert a == q0 * n + r0;
    assert (q - q0) * n == q * n - q0 * n;
    if q > q0 {
      MulAtLeast(q - q0, n);
    } else if q < q0 {
      assert (q0 - q) * n == q0 * n - q * n;
      MulAtLeast(q0 - q, n);
    }
  }

  lemma MulAtLeast(d: int, n: int)
    requires d >= 1 && n > 0
    ensures d * n >= n
  {
    assert d * n == (d - 1) * n + n;
    assert (d - 1) * n >= 0;
  }
}

=== FILE: class_options.dfy ===
/**
 * Per-slide configuration carried in a slide's class attribute
 * (Slideshow.build): the attribute is split on single spaces, and every
 * `name:value` token whose name and value are both non-empty has its value
 * decoded as JSON. A value that does not decode is skipped; a later token for
 * the same name overrides an earlier one.
 */
module ClassOptions {
  import opened Wrappers

  /** A decoded JSON value. */
  datatype Json =
    | JNull
    | JBool(b: bool)
    | JNumber(x: real)
    | JString(s: string)
    | JArray(items: seq<Json>)
    | JObject(fields: map<string, Json>)

  /** The inverse of Split: the parts with the separator between each pair. */
  function Join(parts: seq<string>, sep: char): string
    requires |parts| > 0
    decreases |parts|
  {
    if |parts| == 1 then parts[0] else parts[0] + [sep] + Join(parts[1..], sep)
  }

  /**
   * String.prototype.split with a one-character separator: every occurrence
   * separates two parts, so adjacent separators produce an empty part and the
   * empty string splits into one empty part.
   */
  function Split(s: string, sep: char): (parts: seq<string>)
    ensures |parts| > 0
    ensures Join(parts, sep) == s
    ensures forall i :: 0 <= i < |parts| ==> sep !in parts[i]
    decreases |s|
  {
    if s == [] then [""]
    else
      var rest := Split(s[1..], sep);
      if s[0] == sep then
        assert ([""] + rest)[1..] == rest;
        [""] + rest
      else
        var parts := [[s[0]] + rest[0]] + rest[1..];
        assert parts[1..] == rest[1..];
        assert |rest| > 1 ==> Join(rest, sep) == rest[0] + [sep] + Join(rest[1..], sep);
        parts
  }

  /** A prefix free of the separator is glued to the first part of what follows. */
  lemma {:induction false} SplitPrefix(a: string, b: string, sep: char)
    requires sep !in a
    ensures Split(a + b, sep) == [a + Split(b, sep)[0]] + Split(b, sep)[1..]
    decreases |a|
  {
    if a != [] {
      assert (a + b)[1..] == a[1..] + b;
      SplitPrefix(a[1..], b, sep);
      assert [a[0]] + (a[1..] + Split(b, sep)[0]) == a + Split(b, sep)[0];
    } else {
      assert a + b == b;
      assert a + Split(b, sep)[0] == Split(b, sep)[0];
      assert Split(b, sep) == [Split(b, sep)[0]] + Split(b, sep)[1..];
    }
  }

  /** A class token read as `name:value`. */
  datatype Entry = Entry(name: string, raw: string)

  /**
   * The token's name is what precedes its first colon and its value what lies
   * between the first and the second colon; both must be non-empty.
   */
  function ParseToken(token: string): (e: Option<Entry>)
    ensures e.Some? ==> e.value.name != "" && e.value.raw != ""
    ensures e.Some? ==> ':' !in e.value.name && ':' !in e.value.raw
  {
    var split := Split(token, ':');
    if |split| > 1 && split[1] != "" && split[0] != "" then Some(Entry(split[0], split[1])) else None
  }

  /**
   * Every token of the form name ':' value, followed by nothing or by a second
   * colon and anything, yields exactly that name and value: what follows a
   * second colon is dropped.
   */
  lemma ParseTokenAccepts(name: string, raw: string, rest: string)
    requires name != "" && raw != "" && ':' !in name && ':' !in raw
    requires rest == [] || rest[0] == ':'
    ensures ParseToken(name + [':'] + raw + rest) == Some(Entry(name, raw))
  {
    var token := name + [':'] + raw + rest;
    assert token == name + ([':'] + (raw + rest));
    var tail := Split(raw + rest, ':');
    assert Split([':'] + (raw + rest), ':') == [""] + tail by {
      assert ([':'] + (raw + rest))[1..] == raw + rest;
    }
    SplitPrefix(name, [':'] + (raw + rest), ':');
    assert Split(token, ':') == [name + ""] + tail;
    SplitPrefix(raw, rest, ':');
    assert Split(rest, ':')[0] == "" by {
      if rest != [] {
        assert rest[0] == ':';
        assert Split(rest, ':') == [""] + Split(rest[1..], ':');
      }
    }
    assert tail[0] == raw + "";
    assert name + "" == name && raw + "" == raw;
  }

  /** Conversely, a token that yields an entry has that shape. */
  lemma ParseTokenShape(token: string)
    requires ParseToken(token).Some?
    ensures var e := ParseToken(token).value;
      var k := |e.name| + 1 + |e.raw|;
      && k <= |token|
      && token[..k] == e.name + [':'] + e.raw
      && (k == |token| || token[k] == ':')
  {
    var split := Split(token, ':');
    var e := ParseToken(token).value;
    assert token == split[0] + [':'] + Join(split[1..], ':');
    var tail := split[1..];
    if |tail| == 1 {
      assert token == e.name + [':'] + e.raw;
    } else {
      assert Join(tail, ':') == e.raw + [':'] + Join(tail[1..], ':');
      assert token == e.name + [':'] + e.raw + ([':'] + Join(tail[1..], ':'));
    }
  }

  /** The token's name and decoded value, when it has both. */
  function Decoded(token: string, decode: string -> Option<Json>): Option<(string, Json)>
  {
    match ParseToken(token)
    case None => None
    case Some(e) =>
      match decode(e.raw)
      case None => None
      case Some(v) => Some((e.name, v))
  }

  /** The token sets option `name`. */
  predicate Binds(token: string, decode: string -> Option<Json>, name: string)
  {
    var d := Decoded(token, decode);
    d.Some? && d.value.0 == name
  }

  /**
   * The options of a token list, processed in order: a name is present exactly
   * when some token binds it, and then holds the value of the last such token.
   */
  function Collect(tokens: seq<string>, decode: string -> Option<Json>): (m: map<string, Json>)
    ensures forall i, name :: 0 <= i < |tokens| && Binds(tokens[i], decode, name) ==> name in m
    ensures forall name :: name in m ==> LastBinding(tokens, decode, name, m[name])
    decreases |tokens|
  {
    if tokens == [] then map[]
    else
      var prefix := tokens[..|tokens| - 1];
      var m := Collect(prefix, decode);
      var last := tokens[|tokens| - 1];
      CollectStep(prefix, last, decode, m);
      assert prefix + [last] == tokens;
      match Decoded(last, decode)
      case None => m
      case Some(d) => m[d.0 := d.1]
  }

  /** Processing one more token keeps Collect's contract. */
  lemma CollectStep(prefix: seq<string>, last: string, decode: string -> Option<Json>, m: map<string, Json>)
    requires forall i, name :: 0 <= i < |prefix| && Binds(prefix[i], decode, name) ==> name in m
    requires forall name :: name in m ==> LastBinding(prefix, decode, name, m[name])
    ensures var tokens := prefix + [last];
      var r := match Decoded(last, decode) case None => m case Some(d) => m[d.0 := d.1];
      && (forall i, name :: 0 <= i < |tokens| && Binds(tokens[i], decode, name) ==> name in r)
      && (forall name :: name in r ==> LastBinding(tokens, decode, name, r[name]))
  {
    var tokens := prefix + [last];
    var r := match Decoded(last, decode) case None => m case Some(d) => m[d.0 := d.1];
    forall i, name | 0 <= i < |tokens| && Binds(tokens[i], decode, name)
      ensures name in r
    {
      if i < |prefix| {
        assert tokens[i] == prefix[i];
      }
    }
    forall name | name in r
      ensures LastBinding(tokens, decode, name, r[name])
    {
      if Binds(last, decode, name) {
        assert LastAt(tokens, decode, name, r[name], |tokens| - 1);
      } else {
        assert name in m && r[name] == m[name];
        var i: nat :| LastAt(prefix, decode, name, m[name], i);
        assert tokens[i] == prefix[i];
        assert LastAt(tokens, decode, name, r[name], i);
      }
    }
  }

  /** Token i binds `name` to v and no later token binds `name`. */
  predicate LastAt(tokens: seq<string>, decode: string -> Option<Json>, name: string, v: Json, i: nat)
  {
    && i < |tokens|
    && Binds(tokens[i], decode, name)
    && Decoded(tokens[i], decode).value.1 == v
    && forall j :: i < j < |tokens| ==> !Binds(tokens[j], decode, name)
  }

  /** Some token binds `name`. */
  ghost predicate SomeBinds(tokens: seq<string>, decode: string -> Option<Json>, name: string)
  {
    exists i :: 0 <= i < |tokens| && Binds(tokens[i], decode, name)
  }

  ghost predicate LastBinding(tokens: seq<string>, decode: string -> Option<Json>, name: string, v: Json)
  {
    exists i: nat :: LastAt(tokens, decode, name, v, i)
  }

  /** The options parsed from one slide's class attribute. */
  function ParseClass(attribute: string, decode: string -> Option<Json>): (m: map<string, Json>)
    ensures forall name :: name in m <==> SomeBinds(Split(attribute, ' '), decode, name)
    ensures forall name :: name in m ==> LastBinding(Split(attribute, ' '), decode, name, m[name])
  {
    var tokens := Split(attribute, ' ');
    CollectBinds(tokens, decode);
    Collect(tokens, decode)
  }

  /** A name is among the collected options exactly when some token binds it. */
  lemma CollectBinds(tokens: seq<string>, decode: string -> Option<Json>)
    ensures forall name :: name in Collect(tokens, decode) <==> SomeBinds(tokens, decode, name)
  {
    var m := Collect(tokens, decode);
    forall name | name in m
      ensures exists i :: 0 <= i < |tokens| && Binds(tokens[i], decode, name)
    {
      var i: nat :| LastAt(tokens, decode, name, m[name], i);
      assert 0 <= i < |tokens| && Binds(tokens[i], decode, name);
    }
    forall name | exists i :: 0 <= i < |tokens| && Binds(tokens[i], decode, name)
      ensures name in m
    {
      var i :| 0 <= i < |tokens| && Binds(tokens[i], decode, name);
    }
  }


  /** A class attribute that is the single token name:raw sets exactly that option. */
  lemma SingleTokenClass(name: string, raw: string, decode: string -> Option<Json>, v: Json)
    requires name != "" && raw != "" && ':' !in name && ':' !in raw && ' ' !in name && ' ' !in raw
    requires decode(raw) == Some(v)
    ensures ParseClass(name + [':'] + raw, decode) == map[name := v]
  {
    var token := name + [':'] + raw;
    SplitPrefix(token, "", ' ');
    assert token + "" == token;
    ParseTokenAccepts(name, raw, "");
    assert token + "" == token;
    assert [token][..0] == [];
  }

  /** A token whose value does not decode is skipped: the options are as if it were absent. */
  lemma {:induction false} FailedTokenSkipped(a: seq<string>, t: string, b: seq<string>, decode: string -> Option<Json>)
    requires Decoded(t, decode).None?
    ensures Collect(a + [t] + b, decode) == Collect(a + b, decode)
    decreases |b|
  {
    if b == [] {
      CollectLast(a, t, decode);
      assert a + [t] + b == a + [t];
      assert a + b == a;
    } else {
      var b', last := b[..|b| - 1], b[|b| - 1];
      var skipped, kept := a + [t] + b', a + b';
      assert Collect(skipped + [last], decode) == Collect(kept + [last], decode) by {
        FailedTokenSkipped(a, t, b', decode);
        CollectLast(skipped, last, decode);
        CollectLast(kept, last, decode);
      }
      assert a + [t] + b == skipped + [last];
      assert a + b == kept + [last];
    }
  }

  /** Collect processes the tokens in order: the last token is applied to the options of the ones before it. */
  lemma CollectLast(prefix: seq<string>, last: string, decode: string -> Option<Json>)
    ensures Collect(prefix + [last], decode) ==
              match Decoded(last, decode) case None => Collect(prefix, decode) case Some(d) => Collect(prefix, decode)[d.0 := d.1]
  {
    assert (prefix + [last])[..|prefix + [last]| - 1] == prefix;
  }

  /** JavaScript truthiness of a decoded value. */
  predicate Truthy(v: Json): (b: bool)
    ensures !b <==> (v == JNull || v == JBool(false) || v == JNumber(0.0) || v == JString(""))
  {
    match v
    case JNull => false
    case JBool(b) => b
    case JNumber(x) => x != 0.0
    case JString(s) => s != ""
    case JArray(_) => true
    case JObject(_) => true
  }

  /**
   * The property name a value converts to when it indexes an object. None
   * stands for a conversion that contains a numeral, which never names an
   * effect; the exact digits are not modelled.
   */
  function PropertyKey(v: Json): (k: Option<string>)
    ensures v.JString? ==> k == Some(v.s)
    ensures v.JNumber? ==> k.None?
    ensures v.JArray? && |v.items| == 1 && v.items[0].JString? ==> k == Some(v.items[0].s)
    decreases v, 1
  {
    match v
    case JNull => Some("null")
    case JBool(b) => Some(if b then "true" else "false")
    case JNumber(_) => None
    case JString(s) => Some(s)
    case JArray(items) => JoinedKeys(v, items)
    case JObject(_) => Some("[object Object]")
  }

  /** Array.prototype.join(","): a null element contributes the empty string. */
  function JoinedKeys(v: Json, items: seq<Json>): Option<string>
    requires forall i :: 0 <= i < |items| ==> items[i] < v
    decreases v, 0, |items|
  {
    if items == [] then Some("")
    else
      var head := if items[0].JNull? then Some("") else PropertyKey(items[0]);
      if |items| == 1 then head
      else
        match (head, JoinedKeys(v, items[1..]))
        case (Some(h), Some(t)) => Some(h + "," + t)
        case _ => None
  }
}

=== FILE: effects.dfy ===
/**
 * The transition effects (Slideshow.Fx and its subclasses) as discrete
 * events: `Start` when a slide is shown, `Apply` for every progress value the
 * animation produces (Fx.set), and `End` for the handlers bound to the
 * complete and cancel events. Each effect acts on the outgoing slide p and on
 * its own slide t.
 */
module Effects {
  import opened Wrappers
  import opened Styles
  import opened Geometry
  import MatrixFx

  /** The classes registered under Slideshow.Fx. */
  datatype Kind =
    | FadeKind
    | CrossFadeKind
    | SlideBaseKind
    | SlideKind(side: Side)
    | MatrixBaseKind
    | MatrixRandomKind

  /** The name an effect class is registered under. */
  function NameOf(k: Kind): string
  {
    match k
    case FadeKind => "fade"
    case CrossFadeKind => "crossFade"
    case SlideBaseKind => "slideBase"
    case SlideKind(Bottom) => "slideUp"
    case SlideKind(Top) => "slideDown"
    case SlideKind(Right) => "slideLeft"
    case SlideKind(Left) => "slideRight"
    case MatrixBaseKind => "matrixBase"
    case MatrixRandomKind => "matrixRandom"
  }

  const RegisteredNames: set<string> :=
    {"fade", "crossFade", "slideBase", "slideUp", "slideDown", "slideLeft", "slideRight", "matrixBase", "matrixRandom"}

  /** Slideshow.Fx[name]: an unregistered name finds no effect. */
  function Registry(name: string): (k: Option<Kind>)
    ensures k.Some? <==> name in RegisteredNames
    ensures k.Some? ==> NameOf(k.value) == name
  {
    if name == "fade" then Some(FadeKind)
    else if name == "crossFade" then Some(CrossFadeKind)
    else if name == "slideBase" then Some(SlideBaseKind)
    else if name == "slideUp" then Some(SlideKind(Bottom))
    else if name == "slideDown" then Some(SlideKind(Top))
    else if name == "slideLeft" then Some(SlideKind(Right))
    else if name == "slideRight" then Some(SlideKind(Left))
    else if name == "matrixBase" then Some(MatrixBaseKind)
    else if name == "matrixRandom" then Some(MatrixRandomKind)
    else None
  }

  /** Every class is found under its own name. */
  lemma RegistryFindsEveryKind(k: Kind)
    ensures Registry(NameOf(k)) == Some(k)
  {
  }

  /** The matrix grid an effect is built with: 8 rows by 6 columns unless its options say otherwise. */
  datatype Grid = Grid(rows: nat, cols: nat)

  const DefaultGrid: Grid := Grid(8, 6)

  /** A matrix effect built with the default grid has 8 * 6 = 48 tiles, all hidden. */
  lemma DefaultGridTiles(k: Kind, size: Size)
    requires k == MatrixBaseKind || k == MatrixRandomKind
    ensures var fx := Create(k, DefaultGrid, size);
      fx.Tiled? && |fx.m.tiles| == 48 && MatrixFx.AllHidden(fx.m.tiles)
  {
  }

  /**
   * An effect instance. A slide effect remembers the extent it moves the
   * outgoing slide by (measured at start, 0 before the first start); a matrix
   * effect owns its tiles.
   */
  datatype Fx =
    | Fade
    | CrossFade
    | SlideBase
    | Slide(side: Side, maxValue: real)
    | Tiled(m: MatrixFx.Matrix)

  function KindOf(fx: Fx): Kind
  {
    match fx
    case Fade => FadeKind
    case CrossFade => CrossFadeKind
    case SlideBase => SlideBaseKind
    case Slide(side, _) => SlideKind(side)
    case Tiled(m) => if m.random then MatrixRandomKind else MatrixBaseKind
  }

  predicate Valid(fx: Fx)
  {
    match fx
    case Slide(_, maxValue) => maxValue >= 0.0
    case Tiled(m) => MatrixFx.Valid(m)
    case _ => true
  }

  /** `new fxClass(slide, options)`: a matrix effect clones and clips its tiles here. */
  function Create(k: Kind, grid: Grid, size: Size): (fx: Fx)
    ensures KindOf(fx) == k && Valid(fx)
    ensures fx.Tiled? ==> MatrixFx.AllHidden(fx.m.tiles) && |fx.m.tiles| == grid.rows * grid.cols
    ensures fx.Tiled? ==> MatrixFx.Revealed(fx.m)
  {
    match k
    case FadeKind => Fade
    case CrossFadeKind => CrossFade
    case SlideBaseKind => SlideBase
    case SlideKind(side) => Slide(side, 0.0)
    case MatrixBaseKind => Tiled(MatrixFx.Init(grid.rows, grid.cols, false, size))
    case MatrixRandomKind => Tiled(MatrixFx.Init(grid.rows, grid.cols, true, size))
  }

  /** `previous.getSize()[direction]`: slideUp and slideDown move along y, slideLeft and slideRight along x. */
  function Extent(size: Size, side: Side): nat
  {
    match side
    case Top => size.y
    case Bottom => size.y
    case Left => size.x
    case Right => size.x
  }

  /** The styles of all slides together with the effect's own state. */
  datatype Scene = Scene(fx: Fx, styles: seq<Style>)

  /**
   * fx.start({previous: p}) for the effect bound to slide t. The bare
   * slideBase class has no direction and fails here, so it is excluded.
   */
  function Start(fx: Fx, styles: seq<Style>, p: nat, t: nat, size: Size, before: (nat, nat) -> bool): (r: Scene)
    requires p < |styles| && t < |styles|
    requires Valid(fx) && !fx.SlideBase?
    ensures |r.styles| == |styles| && Valid(r.fx) && KindOf(r.fx) == KindOf(fx)
    ensures forall k :: 0 <= k < |styles| && k != p && k != t ==> r.styles[k] == styles[k]
    ensures forall k :: 0 <= k < |styles| && k != t ==> r.styles[k].display == styles[k].display
    ensures r.styles[t].display == if fx.Tiled? then Hidden else styles[t].display
    ensures fx.Fade? || fx.Slide? ==> r.styles[t].zIndex == 0 && (p != t ==> r.styles[p].zIndex == 1)
    ensures fx.Slide? ==> r.fx.maxValue == Extent(size, fx.side) as real
    ensures fx.Tiled? ==> r.fx.Tiled? && MatrixFx.Revealed(r.fx.m) && r.fx.m.cursor == 0
    ensures fx.Tiled? ==> MatrixFx.AllHidden(r.fx.m.tiles) && (p != t ==> r.styles[p].zIndex == 0)
    ensures fx.Tiled? ==> MatrixFx.ClippedTo(r.fx.m.tiles, size, fx.m.rows, fx.m.cols)
  {
    match fx
    case Fade =>
      Scene(fx, styles[p := styles[p].(zIndex := 1)][t := styles[t].(zIndex := 0)])
    case CrossFade =>
      Scene(fx, styles)
    case Slide(side, _) =>
      var moved := styles[p := styles[p].(zIndex := 1)][t := styles[t].(zIndex := 0)];
      Scene(Slide(side, Extent(size, side) as real), moved)
    case Tiled(m) =>
      var under := styles[p := styles[p].(zIndex := 0)];
      Scene(Tiled(MatrixFx.Start(m, size, before)), under[t := under[t].(display := Hidden)])
  }

  /** The end value of the effect's run: fade runs from 1 to 0, a matrix effect from 0 to count, the others from 0 to 1. */
  function To(fx: Fx): real
  {
    match fx
    case Fade => 0.0
    case Tiled(m) => MatrixFx.Count(m) as real
    case _ => 1.0
  }

  /**
   * The frame at the run's end value leaves each effect complete: fade has
   * made the outgoing slide transparent, crossFade has swapped the two
   * opacities, a slide effect has moved the outgoing slide by its full
   * extent, and a matrix effect has revealed every tile.
   */
  lemma FinalFrame(fx: Fx, styles: seq<Style>, p: nat, t: nat, size: Size, before: (nat, nat) -> bool)
    requires p < |styles| && t < |styles| && p != t
    requires Valid(fx) && !fx.SlideBase?
    ensures var started := Start(fx, styles, p, t, size, before);
      var r := Apply(started.fx, started.styles, p, t, To(started.fx));
      && (fx.Fade? ==> r.styles[p].opacity == 0.0)
      && (fx.CrossFade? ==> r.styles[p].opacity == 0.0 && r.styles[t].opacity == 1.0)
      && (fx.Slide? ==> r.styles[p].offset[fx.side] == Extent(size, fx.side) as real)
      && (fx.Tiled? ==> r.fx.Tiled? && forall k :: 0 <= k < |r.fx.m.tiles| ==> r.fx.m.tiles[k].display == Shown)
  {
    var started := Start(fx, styles, p, t, size, before);
    if fx.Tiled? {
      MatrixFx.SetToEndRevealsAll(started.fx.m, To(started.fx));
    }
  }

  /**
   * slideUp and slideDown move the outgoing slide by its height, slideLeft
   * and slideRight by its width.
   */
  lemma SlideExtents(size: Size, name: string)
    requires Registry(name).Some? && Registry(name).value.SlideKind?
    ensures name == "slideUp" || name == "slideDown" ==> Extent(size, Registry(name).value.side) == size.y
    ensures name == "slideLeft" || name == "slideRight" ==> Extent(size, Registry(name).value.side) == size.x
  {
  }

  /**
   * fx.set(now). fade fades the outgoing slide, crossFade fades the incoming
   * slide in while the outgoing one fades out, a slide effect moves the
   * outgoing slide by maxValue * now, and a matrix effect reveals tiles.
   */
  function Apply(fx: Fx, styles: seq<Style>, p: nat, t: nat, now: real): (r: Scene)
    requires p < |styles| && t < |styles|
    requires Valid(fx) && !fx.SlideBase?
    ensures |r.styles| == |styles| && Valid(r.fx) && KindOf(r.fx) == KindOf(fx)
    ensures forall k :: 0 <= k < |styles| && k != p && k != t ==> r.styles[k] == styles[k]
    ensures forall k :: 0 <= k < |styles| ==> r.styles[k].display == styles[k].display
    ensures forall k :: 0 <= k < |styles| ==> r.styles[k].zIndex == styles[k].zIndex
    ensures fx.Fade? ==> r.styles[p].opacity == now
    ensures fx.CrossFade? ==> r.styles[p].opacity == 1.0 - now
    ensures fx.CrossFade? && p != t ==> r.styles[t].opacity == now && r.styles[p].opacity + r.styles[t].opacity == 1.0
    ensures fx.Slide? ==> r.fx == fx && fx.side in r.styles[p].offset && r.styles[p].offset[fx.side] == fx.maxValue * now
    ensures fx.Slide? && 0.0 <= now <= 1.0 ==> 0.0 <= r.styles[p].offset[fx.side] <= fx.maxValue
    ensures fx.Tiled? ==> r.fx == Tiled(MatrixFx.Set(fx.m, now))
    ensures fx.Tiled? && MatrixFx.Revealed(fx.m) ==> MatrixFx.Revealed(r.fx.m)
  {
    match fx
    case Fade =>
      Scene(fx, styles[p := styles[p].(opacity := now)])
    case CrossFade =>
      var faded := styles[t := styles[t].(opacity := now)];
      Scene(fx, faded[p := faded[p].(opacity := 1.0 - now)])
    case Slide(side, maxValue) =>
      MoveWithin(maxValue, now);
      Scene(fx, styles[p := styles[p].(offset := styles[p].offset[side := maxValue * now])])
    case Tiled(m) =>
      if MatrixFx.Revealed(m) then MatrixFx.SetKeepsRevealed(m, now); Scene(Tiled(MatrixFx.Set(m, now)), styles)
      else Scene(Tiled(MatrixFx.Set(m, now)), styles)
  }

  lemma MoveWithin(maxValue: real, now: real)
    requires maxValue >= 0.0
    ensures 0.0 <= now <= 1.0 ==> 0.0 <= maxValue * now <= maxValue
  {
    if 0.0 <= now <= 1.0 {
      assert maxValue - maxValue * now == maxValue * (1.0 - now);
    }
  }

  /**
   * The complete and cancel handlers an effect binds itself: matrixBase.end
   * shows the slide again and hides every tile; the other effects bind none.
   */
  function End(fx: Fx, styles: seq<Style>, t: nat): (r: Scene)
    requires t < |styles| && Valid(fx)
    ensures |r.styles| == |styles| && Valid(r.fx) && KindOf(r.fx) == KindOf(fx)
    ensures forall k :: 0 <= k < |styles| && k != t ==> r.styles[k] == styles[k]
    ensures !fx.Tiled? ==> r == Scene(fx, styles)
    ensures fx.Tiled? ==> r.fx.Tiled? && MatrixFx.AllHidden(r.fx.m.tiles) && r.styles[t].display == Shown
    ensures fx.Tiled? ==> r.styles[t] == styles[t].(display := Shown)
  {
    match fx
    case Tiled(m) => Scene(Tiled(MatrixFx.End(m)), styles[t := styles[t].(display := Shown)])
    case _ => Scene(fx, styles)
  }
}

=== FILE: geometry.dfy ===
/**
 * The clip grid of the matrix effects (matrixBase.resize and matrixBase.rect).
 * The slide box of size x by y is cut into `rows` strips along x and `cols`
 * strips along y; tile k = i*cols + j is clipped to strip i along x and strip
 * j along y. Coordinates are exact reals instead of floating-point pixels.
 */
module Geometry {
  import Arith

  /** An element's rendered size in whole pixels (getSize). */
  datatype Size = Size(x: nat, y: nat)

  /** A CSS clip rectangle rect(top, right, bottom, left). */
  datatype Rect = Rect(top: real, right: real, bottom: real, left: real)

  /** matrixBase.rect(i, j, w, h). */
  function Cell(i: nat, j: nat, w: real, h: real): (r: Rect)
    ensures r.left == i as real * w && r.right == (i + 1) as real * w
    ensures r.top == j as real * h && r.bottom == (j + 1) as real * h
  {
    Rect(j as real * h, (i + 1) as real * w, (j + 1) as real * h, i as real * w)
  }

  /** The width of one strip along x: size.x / rows. */
  function StripWidth(size: Size, rows: nat): real
    requires rows > 0
  {
    size.x as real / rows as real
  }

  /** The height of one strip along y: size.y / cols. */
  function StripHeight(size: Size, cols: nat): real
    requires cols > 0
  {
    size.y as real / cols as real
  }

  /** The clip of every tile, indexed by tile number, as resize assigns them. */
  function Clips(size: Size, rows: nat, cols: nat): (r: seq<Rect>)
    ensures |r| == rows * cols
  {
    if rows == 0 || cols == 0 then []
    else
      seq(rows * cols, k requires 0 <= k < rows * cols =>
        Cell(k / cols, k % cols, StripWidth(size, rows), StripHeight(size, cols)))
  }

  /** Tile number i*cols + j is in range and decomposes back into (i, j). */
  lemma TileIndex(i: nat, j: nat, rows: nat, cols: nat)
    requires i < rows && j < cols
    ensures i * cols + j < rows * cols
    ensures (i * cols + j) / cols == i && (i * cols + j) % cols == j
  {
    assert (rows - i - 1) * cols >= 0;
    assert rows * cols == i * cols + cols + (rows - i - 1) * cols;
    Arith.DivModUnique(i * cols + j, cols, i, j);
  }

  /** The clip of tile k, read through its strips k / cols and k % cols. */
  lemma ClipAt(size: Size, rows: nat, cols: nat, k: nat)
    requires k < rows * cols
    ensures cols > 0 && rows > 0
    ensures Clips(size, rows, cols)[k] == Cell(k / cols, k % cols, StripWidth(size, rows), StripHeight(size, cols))
  {
  }

  /** Tile i*cols + j is clipped to rect(i, j, w, h), as resize's double loop assigns it. */
  lemma ClipOfTile(size: Size, rows: nat, cols: nat, i: nat, j: nat)
    requires i < rows && j < cols
    ensures i * cols + j < |Clips(size, rows, cols)|
    ensures Clips(size, rows, cols)[i * cols + j] == Cell(i, j, StripWidth(size, rows), StripHeight(size, cols))
  {
    TileIndex(i, j, rows, cols);
  }

  /** The tile's row and column strip. */
  lemma TileStrips(k: nat, rows: nat, cols: nat) returns (i: nat, j: nat)
    requires k < rows * cols
    ensures cols > 0 && i < rows && j < cols && k == i * cols + j
    ensures i == k / cols && j == k % cols
  {
    assert cols > 0;
    i, j := k / cols, k % cols;
  }

  predicate Inside(r: Rect, x: real, y: real)
  {
    r.left <= x <= r.right && r.top <= y <= r.bottom
  }

  /** The interiors of a and b do not meet: they are separated along x or along y. */
  predicate InteriorsDisjoint(a: Rect, b: Rect)
  {
    a.right <= b.left || b.right <= a.left || a.bottom <= b.top || b.bottom <= a.top
  }

  /** r lies within the box [0, size.x] by [0, size.y]. */
  predicate WithinBox(r: Rect, size: Size)
  {
    0.0 <= r.left <= r.right <= size.x as real && 0.0 <= r.top <= r.bottom <= size.y as real
  }

  lemma MulMono(a: real, b: real, c: real)
    requires a <= b && c >= 0.0
    ensures a * c <= b * c
  {
    assert b * c - a * c == (b - a) * c;
  }

  /** Strip i of n equal strips of [0, len] lies within [0, len]. */
  lemma StripWithin(i: nat, n: nat, len: real)
    requires i < n && len >= 0.0
    ensures 0.0 <= i as real * (len / n as real)
    ensures (i + 1) as real * (len / n as real) <= len
    ensures i as real * (len / n as real) <= (i + 1) as real * (len / n as real)
  {
    var w := len / n as real;
    assert w >= 0.0;
    assert n as real * w == len;
    MulMono(0.0, i as real, w);
    MulMono((i + 1) as real, n as real, w);
    MulMono(i as real, (i + 1) as real, w);
  }

  /** Every clip lies within the slide box. */
  lemma ClipWithinBox(size: Size, rows: nat, cols: nat, k: nat)
    requires k < rows * cols
    ensures WithinBox(Clips(size, rows, cols)[k], size)
  {
    var i, j := TileStrips(k, rows, cols);
    ClipAt(size, rows, cols, k);
    StripWithin(i, rows, size.x as real);
    StripWithin(j, cols, size.y as real);
  }

  /** Two different tiles have interior-disjoint clips. */
  lemma ClipsDisjoint(size: Size, rows: nat, cols: nat, k: nat, l: nat)
    requires k < rows * cols && l < rows * cols && k != l
    ensures InteriorsDisjoint(Clips(size, rows, cols)[k], Clips(size, rows, cols)[l])
  {
    var i, j := TileStrips(k, rows, cols);
    var i', j' := TileStrips(l, rows, cols);
    ClipAt(size, rows, cols, k);
    ClipAt(size, rows, cols, l);
    var w, h := StripWidth(size, rows), StripHeight(size, cols);
    assert i != i' || j != j';
    CellsDisjoint(i, j, i', j', w, h);
  }

  /** Different cells of one grid are separated along x or along y. */
  lemma CellsDisjoint(i: nat, j: nat, i': nat, j': nat, w: real, h: real)
    requires i != i' || j != j'
    requires w >= 0.0 && h >= 0.0
    ensures InteriorsDisjoint(Cell(i, j, w, h), Cell(i', j', w, h))
  {
    if i < i' {
      ColumnsApart(i, j, i', j', w, h);
    } else if i' < i {
      ColumnsApart(i', j', i, j, w, h);
    } else if j < j' {
      RowsApart(i, j, i', j', w, h);
    } else {
      RowsApart(i', j', i, j, w, h);
    }
  }

  /** A cell in an earlier strip along x ends where or before the later one begins. */
  lemma ColumnsApart(i: nat, j: nat, i': nat, j': nat, w: real, h: real)
    requires i < i' && w >= 0.0
    ensures Cell(i, j, w, h).right <= Cell(i', j', w, h).left
  {
    StripsOrdered(i, i', w);
  }

  /** A cell in an earlier strip along y ends where or before the later one begins. */
  lemma RowsApart(i: nat, j: nat, i': nat, j': nat, w: real, h: real)
    requires j < j' && h >= 0.0
    ensures Cell(i, j, w, h).bottom <= Cell(i', j', w, h).top
  {
    StripsOrdered(j, j', h);
  }

  /** Strip a ends no later than a later strip b begins. */
  lemma StripsOrdered(a: nat, b: nat, w: real)
    requires a < b && w >= 0.0
    ensures (a + 1) as real * w <= b as real * w
  {
    MulMono((a + 1) as real, b as real, w);
  }

  /** Some strip of n equal strips of [0, len] contains x. */
  lemma StripCover(x: real, n: nat, len: real) returns (i: nat)
    requires n > 0 && 0.0 <= x <= len
    ensures i < n
    ensures i as real * (len / n as real) <= x <= (i + 1) as real * (len / n as real)
  {
    var w := len / n as real;
    if len == 0.0 {
      i := 0;
      assert w == 0.0;
    } else {
      assert w > 0.0;
      assert n as real * w == len;
      var q := x / w;
      assert q * w == x;
      assert q <= n as real by {
        if q > n as real {
          MulMono(n as real, q, w);
        }
      }
      assert q >= 0.0;
      var f := q.Floor;
      if f >= n {
        i := n - 1;
        assert q == n as real;
        MulMono(i as real, (i + 1) as real, w);
      } else {
        i := f;
        MulMono(i as real, q, w);
        MulMono(q, (i + 1) as real, w);
      }
    }
  }

  /** Every point of the slide box lies in some cell of the grid. */
  lemma CellCover(size: Size, rows: nat, cols: nat, x: real, y: real) returns (i: nat, j: nat)
    requires rows > 0 && cols > 0
    requires 0.0 <= x <= size.x as real && 0.0 <= y <= size.y as real
    ensures i < rows && j < cols
    ensures Inside(Cell(i, j, StripWidth(size, rows), StripHeight(size, cols)), x, y)
  {
    i := StripCover(x, rows, size.x as real);
    j := StripCover(y, cols, size.y as real);
  }

  /** Every point of the slide box lies in the clip of some tile. */
  lemma ClipsCover(size: Size, rows: nat, cols: nat, x: real, y: real) returns (k: nat)
    requires rows > 0 && cols > 0
    requires 0.0 <= x <= size.x as real && 0.0 <= y <= size.y as real
    ensures k < rows * cols && Inside(Clips(size, rows, cols)[k], x, y)
  {
    var i, j := CellCover(size, rows, cols, x, y);
    ClipOfTile(size, rows, cols, i, j);
    k := i * cols + j;
  }
}

=== FILE: matrix_fx.dfy ===
/**
 * The tiled reveal effects (Slideshow.Fx.matrixBase and matrixRandom). The
 * effect owns rows*cols clones of its slide, the tiles, stacked above it at
 * z-index 1; each tile is clipped to one cell of the slide box. Starting the
 * effect hides the slide and all tiles, and every progress step reveals the
 * tiles whose reveal rank the cursor has passed.
 */
module MatrixFx {
  import opened Styles
  import opened Geometry
  import opened RevealOrder

  datatype Tile = Tile(display: Display, clip: Rect)

  /**
   * The effect's state: its grid, whether the reveal order is random, the
   * tiles, the slide size last measured, the reveal cursor and the reveal
   * order of the current run.
   */
  datatype Matrix = Matrix(
    rows: nat,
    cols: nat,
    random: bool,
    tiles: seq<Tile>,
    size: Size,
    cursor: nat,
    order: seq<nat>)

  /** count = rows * cols. */
  function Count(m: Matrix): nat
  {
    m.rows * m.cols
  }

  predicate Valid(m: Matrix)
  {
    && |m.tiles| == Count(m)
    && m.cursor <= Count(m)
    && IsOrder(m.order, Count(m))
  }

  predicate AllHidden(tiles: seq<Tile>)
  {
    forall t :: 0 <= t < |tiles| ==> tiles[t].display == Hidden
  }

  /** Tile t is displayed exactly when its reveal rank is below the cursor. */
  predicate Revealed(m: Matrix)
    requires Valid(m)
  {
    forall t :: 0 <= t < |m.tiles| ==> (m.tiles[t].display == Shown <==> RankBelow(m.order, t, m.cursor))
  }

  /** Some rank below `bound` names tile t. */
  predicate RankBelow(order: seq<nat>, t: nat, bound: nat)
  {
    exists r :: 0 <= r < bound && r < |order| && order[r] == t
  }

  /** Some rank in lo..hi-1 names tile t. */
  predicate RanksBetween(order: seq<nat>, t: nat, lo: nat, hi: nat)
  {
    exists r :: lo <= r < hi && r < |order| && order[r] == t
  }

  /** Every tile's clip is the cell resize assigns it for `size`. */
  predicate ClippedTo(tiles: seq<Tile>, size: Size, rows: nat, cols: nat)
  {
    |tiles| == rows * cols && forall k :: 0 <= k < |tiles| ==> tiles[k].clip == Clips(size, rows, cols)[k]
  }

  /** matrixBase.resize: measures the slide and re-clips every tile, leaving its display alone. */
  function Resize(m: Matrix, size: Size): (r: Matrix)
    requires |m.tiles| == Count(m)
    ensures ClippedTo(r.tiles, size, m.rows, m.cols) && r.size == size
    ensures forall t :: 0 <= t < |m.tiles| ==> r.tiles[t].display == m.tiles[t].display
    ensures r == m.(tiles := r.tiles, size := size)
  {
    var clips := Clips(size, m.rows, m.cols);
    m.(size := size,
       tiles := seq(|m.tiles|, k requires 0 <= k < |m.tiles| => m.tiles[k].(clip := clips[k])))
  }

  /**
   * matrixBase.initialize: count hidden tiles, clipped for the slide's size.
   * The reveal order and cursor are only read after a start; until then they
   * hold the identity order and 0.
   */
  function Init(rows: nat, cols: nat, random: bool, size: Size): (m: Matrix)
    ensures Valid(m) && Revealed(m)
    ensures m.rows == rows && m.cols == cols && m.random == random && |m.tiles| == rows * cols
    ensures AllHidden(m.tiles) && ClippedTo(m.tiles, size, rows, cols)
  {
    var blank := Matrix(rows, cols, random, seq(rows * cols, _ => Tile(Hidden, Rect(0.0, 0.0, 0.0, 0.0))),
                        size, 0, Identity(rows * cols));
    Resize(blank, size)
  }

  /** The reveal order of a new run: identity for matrixBase, a random arrangement for matrixRandom. */
  function Sequence(m: Matrix, before: (nat, nat) -> bool): (s: seq<nat>)
    ensures IsOrder(s, Count(m))
    ensures !m.random ==> s == Identity(Count(m))
  {
    if m.random then RandomSequence(Count(m), before) else Identity(Count(m))
  }

  /**
   * matrixBase.start. Its test `this.size != this.next.getSize()` compares a
   * stored object with a fresh one, so it always holds and the tiles are
   * always re-clipped. Every tile is hidden, the cursor returns to 0 and a new
   * reveal order is drawn.
   */
  function Start(m: Matrix, size: Size, before: (nat, nat) -> bool): (r: Matrix)
    requires |m.tiles| == Count(m)
    ensures Valid(r) && Revealed(r)
    ensures r.cursor == 0 && AllHidden(r.tiles)
    ensures ClippedTo(r.tiles, size, m.rows, m.cols)
    ensures r.rows == m.rows && r.cols == m.cols && r.random == m.random
    ensures r.order == Sequence(m, before) && r.size == size
  {
    var resized := Resize(m, size);
    var hidden := seq(|resized.tiles|, k requires 0 <= k < |resized.tiles| => resized.tiles[k].(display := Hidden));
    resized.(tiles := hidden, cursor := 0, order := Sequence(m, before))
  }

  /** The least integer not below x (Math.ceil). */
  function Ceil(x: real): (c: int)
    ensures (c - 1) as real < x <= c as real
  {
    -((-x).Floor)
  }

  function Min(a: int, b: int): int { if a <= b then a else b }
  function Max(a: int, b: int): int { if a <= b then b else a }

  /**
   * Displays the tiles that ranks lo..hi-1 of the order name, one rank at a
   * time, as the loop body of matrixBase.set does.
   */
  function RevealRanks(tiles: seq<Tile>, order: seq<nat>, lo: nat, hi: nat): (r: seq<Tile>)
    requires lo <= hi && hi <= |order|
    requires forall k :: 0 <= k < |order| ==> order[k] < |tiles|
    ensures |r| == |tiles|
    ensures forall t :: 0 <= t < |tiles| ==> r[t].clip == tiles[t].clip
    ensures forall t :: 0 <= t < |tiles| ==>
                (r[t].display == Shown <==> (tiles[t].display == Shown || exists k :: lo <= k < hi && order[k] == t))
    decreases hi - lo
  {
    if lo == hi then tiles
    else
      var t := order[lo];
      RevealRanks(tiles[t := tiles[t].(display := Shown)], order, lo + 1, hi)
  }

  /**
   * matrixBase.set(now): with k = ceil(now), reveals rank after rank while the
   * cursor is below both count and k + 1. Tiles are only ever revealed here.
   */
  function Set(m: Matrix, now: real): (r: Matrix)
    requires Valid(m)
    ensures Valid(r)
    ensures r.cursor == Min(Count(m), Max(m.cursor, Ceil(now) + 1))
    ensures r == m.(tiles := r.tiles, cursor := r.cursor)
    ensures forall t :: 0 <= t < |m.tiles| ==> r.tiles[t].clip == m.tiles[t].clip
    ensures forall t :: 0 <= t < |m.tiles| ==>
                (r.tiles[t].display == Shown <==> (m.tiles[t].display == Shown || RanksBetween(m.order, t, m.cursor, r.cursor)))
  {
    OrderNamesEveryTile(m.order, Count(m));
    var k := Ceil(now);
    var target: nat := if m.cursor < Count(m) && m.cursor <= k then Min(Count(m), k + 1) else m.cursor;
    m.(tiles := RevealRanks(m.tiles, m.order, m.cursor, target), cursor := target)
  }

  /** Under the identity order, tile k is displayed exactly when k is below the cursor. */
  lemma IdentityRevealsPrefix(m: Matrix)
    requires Valid(m) && Revealed(m) && m.order == Identity(Count(m))
    ensures forall k :: 0 <= k < |m.tiles| ==> (m.tiles[k].display == Shown <==> k < m.cursor)
  {
    forall k | 0 <= k < |m.tiles|
      ensures m.tiles[k].display == Shown <==> k < m.cursor
    {
      if k < m.cursor {
        assert m.order[k] == k;
      }
    }
  }

  /**
   * A matrixBase run reveals its tiles in row-major order: after start and
   * any frame, the displayed tiles are exactly those numbered below the
   * cursor, tile k = i*cols + j before tile k+1.
   */
  lemma BaseRevealsRowMajor(m: Matrix, size: Size, before: (nat, nat) -> bool, now: real)
    requires |m.tiles| == Count(m) && !m.random
    ensures var r := Set(Start(m, size, before), now);
      forall k :: 0 <= k < |r.tiles| ==> (r.tiles[k].display == Shown <==> k < r.cursor)
  {
    var started := Start(m, size, before);
    SetKeepsRevealed(started, now);
    IdentityRevealsPrefix(Set(started, now));
  }

  /** A step keeps the tiles revealed exactly up to the cursor. */
  lemma SetKeepsRevealed(m: Matrix, now: real)
    requires Valid(m) && Revealed(m)
    ensures Revealed(Set(m, now))
  {
    var r := Set(m, now);
    forall t | 0 <= t < |r.tiles|
      ensures r.tiles[t].display == Shown <==> RankBelow(r.order, t, r.cursor)
    {
      if RankBelow(r.order, t, r.cursor) {
        var k :| 0 <= k < r.cursor && k < |r.order| && r.order[k] == t;
        if k < m.cursor {
          assert RankBelow(m.order, t, m.cursor);
        }
      }
    }
  }

  /** The step to the run's end value count reveals every tile. */
  lemma SetToEndRevealsAll(m: Matrix, now: real)
    requires Valid(m) && Revealed(m) && now >= Count(m) as real - 1.0
    ensures forall t :: 0 <= t < Count(m) ==> Set(m, now).tiles[t].display == Shown
  {
    var r := Set(m, now);
    OrderNamesEveryTile(m.order, Count(m));
    forall t | 0 <= t < Count(m)
      ensures r.tiles[t].display == Shown
    {
      assert t in m.order;
      var k :| 0 <= k < |m.order| && m.order[k] == t;
      if m.tiles[t].display != Shown {
        assert !RankBelow(m.order, t, m.cursor);
        assert RanksBetween(m.order, t, m.cursor, r.cursor);
      }
    }
  }

  /** matrixBase.end, run on complete, on chain completion and on cancel: hides every tile. */
  function End(m: Matrix): (r: Matrix)
    ensures AllHidden(r.tiles) && |r.tiles| == |m.tiles|
    ensures r == m.(tiles := r.tiles)
    ensures forall t :: 0 <= t < |m.tiles| ==> r.tiles[t].clip == m.tiles[t].clip
  {
    m.(tiles := seq(|m.tiles|, k requires 0 <= k < |m.tiles| => m.tiles[k].(display := Hidden)))
  }
}

=== FILE: navigation.dfy ===
/**
 * Resolution of a slide target (Slideshow.findByString). Slides are identified
 * by their position 0..n-1 in the container; the symbolic names resolve
 * relative to a reference slide and wrap around at both ends.
 */
module Navigation {
  import opened Wrappers
  import Arith

  /** The slide after slide i, wrapping from the last slide back to the first. */
  function Next(n: nat, i: nat): (r: nat)
    requires i < n
    ensures r < n
    ensures r == (i + 1) % n
  {
    if i + 1 >= n then Arith.DivModUnique(n, n, 1, 0); 0 else Arith.DivModUnique(i + 1, n, 0, i + 1); i + 1
  }

  /** The slide before slide i, wrapping from the first slide to the last. */
  function Previous(n: nat, i: nat): (r: nat)
    requires i < n
    ensures r < n
    ensures r == (i + n - 1) % n
  {
    if i == 0 then Arith.DivModUnique(n - 1, n, 0, n - 1); n - 1
    else Arith.DivModUnique(i + n - 1, n, 1, i - 1); i - 1
  }

  /**
   * findByString(name, ref): the reference slide is `ref` when given, the
   * current slide otherwise; a name other than the four symbolic ones leaves
   * the reference slide selected.
   */
  function FindByString(n: nat, current: nat, ref: Option<nat>, name: string): (r: nat)
    requires current < n
    requires ref.Some? ==> ref.value < n
    ensures r < n
    ensures name == "first" ==> r == 0
    ensures name == "last" ==> r == n - 1
    ensures name == "next" ==> r == (Reference(current, ref) + 1) % n
    ensures name == "previous" ==> r == (Reference(current, ref) + n - 1) % n
    ensures name !in {"first", "last", "next", "previous"} ==> r == Reference(current, ref)
  {
    var index := Reference(current, ref);
    if name == "first" then 0
    else if name == "last" then n - 1
    else if name == "previous" then Previous(n, index)
    else if name == "next" then Next(n, index)
    else index
  }

  /** The slide the symbolic names are resolved against (`ref || this.current`). */
  function Reference(current: nat, ref: Option<nat>): nat
  {
    if ref.Some? then ref.value else current
  }

  /** Next and Previous undo each other. */
  lemma NextPreviousInverse(n: nat, i: nat)
    requires i < n
    ensures Previous(n, Next(n, i)) == i
    ensures Next(n, Previous(n, i)) == i
  {
  }

  /** The slide reached from i by k successive steps to the next slide. */
  function NextTimes(n: nat, i: nat, k: nat): (r: nat)
    requires i < n
    ensures r < n
    decreases k
  {
    if k == 0 then i else Next(n, NextTimes(n, i, k - 1))
  }

  /** k steps forward land on (i + k) mod n. */
  lemma {:induction false} NextTimesIsModular(n: nat, i: nat, k: nat)
    requires i < n
    ensures NextTimes(n, i, k) == (i + k) % n
    decreases k
  {
    if k > 0 {
      NextTimesIsModular(n, i, k - 1);
      var a := i + k - 1;
      ModSuccessor(a, n);
    }
  }

  lemma ModSuccessor(a: nat, n: nat)
    requires n > 0
    ensures (a % n + 1) % n == (a + 1) % n
  {
    var q, r := a / n, a % n;
    if r + 1 < n {
      Arith.DivModUnique(a + 1, n, q, r + 1);
      Arith.DivModUnique(r + 1, n, 0, r + 1);
    } else {
      assert a + 1 == (q + 1) * n;
      Arith.DivModUnique(a + 1, n, q + 1, 0);
      Arith.DivModUnique(n, n, 1, 0);
    }
  }

  /** n steps forward from any slide return to it: the rotation is circular. */
  lemma NextCycle(n: nat, i: nat)
    requires i < n
    ensures NextTimes(n, i, n) == i
  {
    NextTimesIsModular(n, i, n);
    Arith.DivModUnique(i + n, n, 1, i);
  }
}

=== FILE: reveal_order.dfy ===
/**
 * The order in which the matrix effects reveal their tiles
 * (matrixBase.sequence and matrixRandom.sequence): rank r of the order names
 * the tile revealed at step r.
 */
module RevealOrder {

  /** [0, 1, ..., n-1]: matrixBase.sequence. */
  function Identity(n: nat): (s: seq<nat>)
    ensures |s| == n
    ensures forall k :: 0 <= k < n ==> s[k] == k
    decreases n
  {
    if n == 0 then [] else Identity(n - 1) + [n - 1]
  }

  /** s is an arrangement of the tile numbers 0..n-1: the same multiset as the identity order. */
  predicate IsOrder(s: seq<nat>, n: nat)
  {
    multiset(s) == multiset(Identity(n))
  }

  /** A reveal order names every tile, and only tiles. */
  lemma OrderNamesEveryTile(s: seq<nat>, n: nat)
    requires IsOrder(s, n)
    ensures |s| == n
    ensures forall r :: 0 <= r < |s| ==> s[r] < n
    ensures forall t :: 0 <= t < n ==> t in s
  {
    assert |multiset(s)| == |s|;
    forall r | 0 <= r < |s|
      ensures s[r] < n
    {
      assert s[r] in multiset(s);
      assert s[r] in Identity(n);
    }
    forall t | 0 <= t < n
      ensures t in s
    {
      assert Identity(n)[t] == t;
      assert t in multiset(Identity(n));
    }
  }

  /**
   * Inserts x into s, scanning from position j towards the front: at each
   * step the comparator's answer before(|s|, j) says whether x goes before
   * s[j-1]. The sort's comparator `Math.round(Math.random()) - 0.5` answers
   * arbitrarily, so its answers are a parameter.
   */
  function Insert(x: nat, s: seq<nat>, j: nat, before: (nat, nat) -> bool): (r: seq<nat>)
    requires j <= |s|
    ensures multiset(r) == multiset(s) + multiset{x}
    decreases j
  {
    if j > 0 && before(|s|, j) then Insert(x, s, j - 1, before)
    else
      assert s == s[..j] + s[j..];
      s[..j] + [x] + s[j..]
  }

  /** An insertion sort of s driven by the comparator's answers. */
  function CoinSort(s: seq<nat>, before: (nat, nat) -> bool): (r: seq<nat>)
    ensures multiset(r) == multiset(s)
    decreases |s|
  {
    if s == [] then []
    else
      var sorted := CoinSort(s[..|s| - 1], before);
      assert s == s[..|s| - 1] + [s[|s| - 1]];
      Insert(s[|s| - 1], sorted, |sorted|, before)
  }

  /** matrixRandom.sequence: the identity order sorted with a random comparator. */
  function RandomSequence(n: nat, before: (nat, nat) -> bool): (s: seq<nat>)
    ensures IsOrder(s, n)
  {
    CoinSort(Identity(n), before)
  }
}

=== FILE: slideshow.dfy ===
/**
 * The slideshow controller (class Slideshow): the slides' styles and bound
 * effects, the current slide, the running-effect flag and the autoplay
 * timers, with one pure transition function per operation. The DOM becomes
 * the per-slide fields of State, the timers a set of live timer ids, and the
 * animation loop of an effect the discrete events Step and Finish.
 */
module Slideshow {
  import opened Wrappers
  import opened Styles
  import opened Geometry
  import Navigation
  import ClassOptions
  import Effects
  import MatrixFx

  /**
   * What `show` accepts: a slide element (given by its position among the
   * slides), a numeric index, or a symbolic name.
   */
  datatype Target = Element(slide: nat) | Index(i: nat) | Named(name: string)

  /** The events the controller fires: 'play', 'stop' and 'show' with the slide's index. */
  datatype Event = Played | Stopped | ShowEvent(slide: nat)

  /**
   * What build stores as a slide's options. `var options` is hoisted in the
   * source, so once an effect binds the name refers to the shared default
   * fxOptions object, merged with the slide's own fxOptions value.
   */
  datatype StoredOptions =
    | SlideOptions(options: map<string, ClassOptions.Json>)
    | SharedFxOptions(fxOptions: Option<ClassOptions.Json>)

  /**
   * styles, fxs, stored: per slide. outgoing: the slide handed to the running
   * effect as `previous`. interval: the timer `this.interval` refers to; live:
   * every timer still firing; created: the number of timers ever created,
   * which is also the next timer's id.
   */
  datatype State = State(
    styles: seq<Style>,
    fxs: seq<Option<Effects.Fx>>,
    stored: seq<StoredOptions>,
    current: nat,
    outgoing: nat,
    fxRunning: bool,
    interval: Option<nat>,
    live: set<nat>,
    created: nat,
    events: seq<Event>)

  predicate Shaped(s: State)
  {
    && |s.styles| > 0
    && |s.fxs| == |s.styles|
    && |s.stored| == |s.styles|
    && s.current < |s.styles|
    && s.outgoing < |s.styles|
  }

  predicate IsTiled(fx: Option<Effects.Fx>)
  {
    fx.Some? && fx.value.Tiled?
  }

  /** The effect of the current slide is running and is a matrix effect. */
  predicate RunningTiled(s: State)
    requires Shaped(s)
  {
    s.fxRunning && IsTiled(s.fxs[s.current])
  }

  predicate TimersValid(s: State)
  {
    && (s.interval.Some? ==> s.interval.value in s.live)
    && (forall id :: id in s.live ==> id < s.created)
  }

  /**
   * Only the current slide and, while an effect runs, the outgoing slide may
   * be displayed; the current slide is displayed unless a matrix effect
   * stands in for it with its tiles.
   */
  predicate DisplayValid(s: State)
    requires Shaped(s)
  {
    && (forall k :: 0 <= k < |s.styles| && k != s.current && !(s.fxRunning && k == s.outgoing) ==>
          s.styles[k].display == Hidden)
    && (!RunningTiled(s) ==> s.styles[s.current].display == Shown)
  }

  /**
   * The running matrix effect shows exactly the tiles the cursor has passed;
   * every other matrix effect shows none.
   */
  predicate TilesValid(s: State)
    requires Shaped(s)
  {
    forall k :: 0 <= k < |s.fxs| && IsTiled(s.fxs[k]) ==>
      && MatrixFx.Valid(s.fxs[k].value.m)
      && (if s.fxRunning && k == s.current then MatrixFx.Revealed(s.fxs[k].value.m)
          else MatrixFx.AllHidden(s.fxs[k].value.m.tiles))
  }

  predicate Valid(s: State)
  {
    && Shaped(s)
    && (forall k :: 0 <= k < |s.fxs| && s.fxs[k].Some? ==> Effects.Valid(s.fxs[k].value))
    && (s.fxRunning ==> s.fxs[s.current].Some? && !s.fxs[s.current].value.SlideBase?)
    && TimersValid(s)
    && DisplayValid(s)
    && TilesValid(s)
  }

  /** No effect runs, only the current slide is displayed and no tile is. */
  predicate Settled(s: State)
    requires Shaped(s)
  {
    && !s.fxRunning
    && (forall k :: 0 <= k < |s.styles| && k != s.current ==> s.styles[k].display == Hidden)
    && s.styles[s.current].display == Shown
    && (forall k :: 0 <= k < |s.fxs| && IsTiled(s.fxs[k]) ==> MatrixFx.AllHidden(s.fxs[k].value.m.tiles))
  }

  /** Two effect lists bind the same kind of effect to every slide. */
  predicate SameKinds(a: seq<Option<Effects.Fx>>, b: seq<Option<Effects.Fx>>)
  {
    && |a| == |b|
    && forall k :: 0 <= k < |a| ==>
         (a[k].Some? <==> b[k].Some?) && (a[k].Some? ==> Effects.KindOf(a[k].value) == Effects.KindOf(b[k].value))
  }

  // ---------------------------------------------------------------- build

  /**
   * The effect class build binds for a slide's options: options.fx when it is
   * truthy, the slideshow's default name otherwise; a name the registry does
   * not know binds nothing.
   */
  function BoundKind(options: map<string, ClassOptions.Json>, defaultFx: string): (k: Option<Effects.Kind>)
    ensures k.Some? ==> Effects.NameOf(k.value) in Effects.RegisteredNames
    ensures ("fx" !in options || !ClassOptions.Truthy(options["fx"])) ==> k == Effects.Registry(defaultFx)
    ensures "fx" in options && options["fx"].JString? && options["fx"].s != "" ==> k == Effects.Registry(options["fx"].s)
  {
    var name :=
      if "fx" in options && ClassOptions.Truthy(options["fx"]) then ClassOptions.PropertyKey(options["fx"])
      else Some(defaultFx);
    if name.Some? then Effects.Registry(name.value) else None
  }

  /**
   * build: every slide gets its options parsed from its class attribute, the
   * saved style (displayed, z-index 0) and the effect its options name; every
   * slide after the first is then hidden and the first becomes current.
   * `grids` holds the grid each slide's matrix effect resolves from its merged
   * options, Effects.DefaultGrid when they set no rows or cols; `size` is the
   * slides' rendered size.
   */
  function Build(attributes: seq<string>, defaultFx: string, decode: string -> Option<ClassOptions.Json>,
                 grids: seq<Effects.Grid>, size: Size): (s: State)
    requires |grids| == |attributes|
    ensures |s.styles| == |attributes| && |s.fxs| == |attributes|
    ensures |attributes| > 0 ==> Valid(s) && Settled(s)
    ensures s.current == 0 && !s.fxRunning && s.interval == None && s.live == {} && s.events == []
    ensures forall k :: 0 <= k < |attributes| ==> (s.styles[k].display == Shown <==> k == 0)
    ensures forall k :: 0 <= k < |attributes| ==> s.styles[k].zIndex == 0
    ensures forall k :: 0 <= k < |attributes| ==>
              var bound := BoundKind(ClassOptions.ParseClass(attributes[k], decode), defaultFx);
              && (s.fxs[k].Some? <==> bound.Some?)
              && (s.fxs[k].Some? ==> Effects.KindOf(s.fxs[k].value) == bound.value)
    ensures |s.stored| == |attributes|
    ensures forall k :: 0 <= k < |attributes| ==>
              var options := ClassOptions.ParseClass(attributes[k], decode);
              && (s.fxs[k].None? ==> s.stored[k] == SlideOptions(options))
              && (s.fxs[k].Some? ==>
                    s.stored[k] == SharedFxOptions(if "fxOptions" in options then Some(options["fxOptions"]) else None))
  {
    var n := |attributes|;
    var styles := seq(n, k requires 0 <= k < n => if k == 0 then Saved else Saved.(display := Hidden));
    var fxs := seq(n, k requires 0 <= k < n =>
      var bound := BoundKind(ClassOptions.ParseClass(attributes[k], decode), defaultFx);
      if bound.Some? then Some(Effects.Create(bound.value, grids[k], size)) else None);
    var stored := seq(n, k requires 0 <= k < n =>
      var options := ClassOptions.ParseClass(attributes[k], decode);
      if fxs[k].Some? then SharedFxOptions(if "fxOptions" in options then Some(options["fxOptions"]) else None)
      else SlideOptions(options));
    State(styles, fxs, stored, 0, 0, false, None, {}, 0, [])
  }

  /** initialize: build, then play when autoplay is set. */
  function Initialize(attributes: seq<string>, defaultFx: string, decode: string -> Option<ClassOptions.Json>,
                      grids: seq<Effects.Grid>, size: Size, autoplay: bool): (s: State)
    requires |grids| == |attributes| && |attributes| > 0
    ensures Valid(s) && s.current == 0 && !s.fxRunning
    ensures autoplay <==> s.interval.Some?
    ensures autoplay ==> s.live == {s.interval.value} && s.events == [Played]
    ensures !autoplay ==> s.live == {} && s.events == []
  {
    var built := Build(attributes, defaultFx, decode, grids, size);
    if autoplay then Play(built) else built
  }

  // ---------------------------------------------------------------- timers

  /** setInterval: starts a new periodic timer and records it; an existing timer is not cleared. */
  function SetInterval(s: State): (r: State)
    ensures r.interval == Some(s.created) && r.live == s.live + {s.created} && r.created == s.created + 1
    ensures r == s.(interval := r.interval, live := r.live, created := r.created)
    ensures TimersValid(s) ==> TimersValid(r)
  {
    s.(interval := Some(s.created), live := s.live + {s.created}, created := s.created + 1)
  }

  /** clearInterval: stops the recorded timer, if any, and forgets it. */
  function ClearInterval(s: State): (r: State)
    ensures r.interval == None
    ensures s.interval.Some? ==> r.live == s.live - {s.interval.value}
    ensures s.interval.None? ==> r.live == s.live
    ensures r == s.(interval := None, live := r.live)
    ensures TimersValid(s) ==> TimersValid(r)
  {
    s.(interval := None, live := if s.interval.Some? then s.live - {s.interval.value} else s.live)
  }

  /** resetInterval: clearInterval followed by setInterval. */
  function ResetInterval(s: State): (r: State)
    ensures r.interval == Some(s.created) && r.created == s.created + 1
    ensures r.live == (if s.interval.Some? then s.live - {s.interval.value} else s.live) + {s.created}
    ensures r == s.(interval := r.interval, live := r.live, created := r.created)
  {
    SetInterval(ClearInterval(s))
  }

  /** play: setInterval, then 'play'. Nothing but the timers and the event log changes. */
  function Play(s: State): (r: State)
    ensures r.interval == Some(s.created) && r.live == s.live + {s.created}
    ensures r.events == s.events + [Played]
    ensures r == s.(interval := r.interval, live := r.live, created := r.created, events := r.events)
    ensures Valid(s) ==> Valid(r)
  {
    SetInterval(s).(events := s.events + [Played])
  }

  /** stop: clearInterval, then 'stop'. Nothing but the timers and the event log changes. */
  function Stop(s: State): (r: State)
    ensures r.interval == None
    ensures r.live == if s.interval.Some? then s.live - {s.interval.value} else s.live
    ensures r.events == s.events + [Stopped]
    ensures r == s.(interval := None, live := r.live, events := r.events)
    ensures Valid(s) ==> Valid(r)
  {
    ClearInterval(s).(events := s.events + [Stopped])
  }

  /**
   * play does not clear a running timer: after play, play and stop the
   * first timer is still live although no interval is recorded, so nothing
   * can stop it any more.
   */
  lemma PlayTwiceLeaksTimer(s: State)
    requires TimersValid(s)
    ensures var r := Stop(Play(Play(s)));
      r.interval == None && s.created in r.live && s.created !in s.live
  {
  }

  // ---------------------------------------------------------------- show

  /** A target is in range when the slide or index it names exists; the source does not check this. */
  predicate InRange(s: State, target: Target)
  {
    match target
    case Element(k) => k < |s.styles|
    case Index(i) => i < |s.styles|
    case Named(_) => true
  }

  /** The slide a target names; the symbolic names resolve against the current slide. */
  function Resolve(s: State, target: Target): (t: nat)
    requires Shaped(s) && InRange(s, target)
    ensures t < |s.styles|
  {
    match target
    case Element(k) => k
    case Index(i) => i
    case Named(name) => Navigation.FindByString(|s.styles|, s.current, None, name)
  }

  /** The bare slideBase class has no direction; starting it fails, so no slide shown may be bound to it. */
  predicate Startable(fx: Option<Effects.Fx>)
  {
    fx.Some? ==> !fx.value.SlideBase?
  }

  predicate CanShow(s: State, target: Target)
  {
    Valid(s) && InRange(s, target) && Startable(s.fxs[Resolve(s, target)])
  }

  /** Stage 1 of show: a call that does not come from the timer restarts an active timer. */
  function ResetTimer(s: State, internal: bool): (r: State)
    ensures !internal && s.interval.Some? ==> r == ResetInterval(s)
    ensures internal || s.interval.None? ==> r == s
    ensures TimersValid(s) ==> TimersValid(r)
  {
    if s.interval.Some? && !internal then ResetInterval(s) else s
  }

  /** The current slide's effect with its own End (complete/cancel) handlers run. */
  function RunEnd(s: State): (r: State)
    requires Valid(s) && s.fxs[s.current].Some?
    ensures Shaped(r) && SameKinds(r.fxs, s.fxs)
    ensures r == s.(styles := r.styles, fxs := r.fxs)
    ensures forall k :: 0 <= k < |s.styles| && k != s.current ==> r.styles[k] == s.styles[k]
    ensures forall k :: 0 <= k < |s.fxs| && k != s.current ==> r.fxs[k] == s.fxs[k]
    ensures forall k :: 0 <= k < |r.fxs| && r.fxs[k].Some? ==> Effects.Valid(r.fxs[k].value)
    ensures IsTiled(s.fxs[s.current]) ==>
              r.styles[s.current].display == Shown && MatrixFx.AllHidden(r.fxs[s.current].value.m.tiles)
    ensures IsTiled(r.fxs[s.current]) ==> MatrixFx.Valid(r.fxs[s.current].value.m)
    ensures !IsTiled(s.fxs[s.current]) ==> r == s
  {
    var sc := Effects.End(s.fxs[s.current].value, s.styles, s.current);
    s.(styles := sc.styles, fxs := s.fxs[s.current := Some(sc.fx)])
  }

  /**
   * fxComplete: every slide but the current one is hidden and the effect is
   * no longer running. The current slide's style is left as it is, and the
   * other slides keep everything but their display.
   */
  function FxComplete(s: State): (r: State)
    requires Shaped(s)
    ensures Shaped(r) && !r.fxRunning
    ensures r == s.(styles := r.styles, fxRunning := false)
    ensures forall k :: 0 <= k < |s.styles| ==>
              (r.styles[k].display == Hidden <==> k != s.current || s.styles[k].display == Hidden)
    ensures r.styles[s.current] == s.styles[s.current]
    ensures forall k :: 0 <= k < |s.styles| ==> r.styles[k] == s.styles[k].(display := r.styles[k].display)
  {
    var styles := seq(|s.styles|, k requires 0 <= k < |s.styles| =>
      if k != s.current then s.styles[k].(display := Hidden) else s.styles[k]);
    s.(styles := styles, fxRunning := false)
  }

  /**
   * The current slide's effect ends (its complete/cancel handlers run) and
   * fxComplete settles the slides.
   */
  function Settle(s: State): (r: State)
    requires Valid(s) && s.fxs[s.current].Some?
    ensures Valid(r) && Settled(r)
    ensures r.current == s.current && r.outgoing == s.outgoing && SameKinds(r.fxs, s.fxs)
    ensures r == s.(styles := r.styles, fxs := r.fxs, fxRunning := false)
  {
    var ended := RunEnd(s);
    var r := FxComplete(ended);
    assert TilesValid(r) by {
      forall k | 0 <= k < |r.fxs| && IsTiled(r.fxs[k])
        ensures MatrixFx.Valid(r.fxs[k].value.m) && MatrixFx.AllHidden(r.fxs[k].value.m.tiles)
      {
        if k != s.current {
          assert r.fxs[k] == s.fxs[k];
        }
      }
    }
    r
  }

  /**
   * Stage 2 of show: a running effect is cancelled, which runs its cancel
   * handlers, and fxComplete settles the slides, all before the current slide
   * changes.
   */
  function CancelRunning(s: State): (r: State)
    requires Valid(s)
    ensures Valid(r) && Settled(r)
    ensures r.current == s.current && r.outgoing == s.outgoing && SameKinds(r.fxs, s.fxs)
    ensures r == s.(styles := r.styles, fxs := r.fxs, fxRunning := false)
    ensures !s.fxRunning ==> r == s
  {
    if s.fxRunning then Settle(s) else s
  }

  /**
   * Stage 3 of show: the outgoing slide is raised to z-index 1, the target
   * becomes current and gets its saved style back, and 'show' fires with the
   * target's index.
   */
  function Retarget(s: State, t: nat): (r: State)
    requires Shaped(s) && t < |s.styles|
    ensures Shaped(r) && |r.styles| == |s.styles| && r.current == t && r.outgoing == s.current
    ensures r.styles[t] == Saved
    ensures t != s.current ==> r.styles[s.current] == s.styles[s.current].(zIndex := 1)
    ensures forall k :: 0 <= k < |s.styles| && k != t && k != s.current ==> r.styles[k] == s.styles[k]
    ensures r.events == s.events + [ShowEvent(t)]
    ensures r == s.(styles := r.styles, current := t, outgoing := s.current, events := r.events)
  {
    var raised := s.styles[s.current := s.styles[s.current].(zIndex := 1)];
    s.(styles := raised[t := Saved], current := t, outgoing := s.current, events := s.events + [ShowEvent(t)])
  }

  /**
   * Stage 4 of show: the current slide's effect, when it has one, starts with
   * the outgoing slide as `previous`; otherwise fxComplete runs at once.
   */
  function Launch(s: State, size: Size, before: (nat, nat) -> bool): (r: State)
    requires Shaped(s) && Startable(s.fxs[s.current])
    requires forall k :: 0 <= k < |s.fxs| && s.fxs[k].Some? ==> Effects.Valid(s.fxs[k].value)
    ensures Shaped(r) && r.current == s.current && r.outgoing == s.outgoing && SameKinds(r.fxs, s.fxs)
    ensures r.fxRunning <==> s.fxs[s.current].Some?
    ensures s.fxs[s.current].None? ==> r == FxComplete(s)
    ensures s.fxs[s.current].Some? ==>
              var sc := Effects.Start(s.fxs[s.current].value, s.styles, s.outgoing, s.current, size, before);
              r == s.(styles := sc.styles, fxs := s.fxs[s.current := Some(sc.fx)], fxRunning := true)
  {
    if s.fxs[s.current].Some? then
      var sc := Effects.Start(s.fxs[s.current].value, s.styles, s.outgoing, s.current, size, before);
      s.(styles := sc.styles, fxs := s.fxs[s.current := Some(sc.fx)], fxRunning := true)
    else
      FxComplete(s)
  }

  /**
   * show(target, internal). The four stages run in the source's order; the
   * call is not skipped when the target is already current. `internal` is
   * true for the timer's calls; `size` is the slides' rendered size and
   * `before` the answers of the random comparator a matrixRandom effect sorts
   * its reveal order with.
   */
  function Show(s: State, target: Target, internal: bool, size: Size, before: (nat, nat) -> bool): (r: State)
    requires CanShow(s, target)
    ensures Valid(r) && SameKinds(r.fxs, s.fxs)
    ensures r.current == Resolve(s, target) && r.outgoing == s.current
    ensures r.events == s.events + [ShowEvent(r.current)]
    ensures internal || s.interval.None? ==> r.interval == s.interval && r.live == s.live && r.created == s.created
    ensures !internal && s.interval.Some? ==>
              r.interval == Some(s.created) && r.live == s.live - {s.interval.value} + {s.created}
    ensures r.fxRunning <==> s.fxs[r.current].Some?
    ensures forall k :: 0 <= k < |s.styles| && k != s.current && k != r.current ==> r.styles[k].display == Hidden
    ensures s.fxs[r.current].None? ==> Settled(r) && r.styles[r.current] == Saved
    ensures r.current != s.current && s.fxs[r.current].Some? && !IsTiled(s.fxs[r.current]) ==>
              r.styles[s.current].zIndex == 1
    ensures r.fxRunning && r.current != s.current ==> r.styles[s.current].display == Shown
    ensures !IsTiled(s.fxs[r.current]) ==> r.styles[r.current] == Saved
    ensures IsTiled(s.fxs[r.current]) ==>
              && IsTiled(r.fxs[r.current]) && r.styles[r.current] == Saved.(display := Hidden)
              && r.fxs[r.current].value.m.cursor == 0 && MatrixFx.AllHidden(r.fxs[r.current].value.m.tiles)
  {
    var r := Stages(s, target, internal, size, before);
    StagesKeepValid(s, target, internal, size, before);
    StagesBookkeeping(s, target, internal, size, before);
    StagesDisplay(s, target, internal, size, before);
    StagesEffect(s, target, internal, size, before);
    r
  }

  /** The four stages of show, composed. */
  function Stages(s: State, target: Target, internal: bool, size: Size, before: (nat, nat) -> bool): State
    requires CanShow(s, target)
  {
    var t := Resolve(s, target);
    var s2 := CancelRunning(ResetTimer(s, internal));
    Prepared(s, internal);
    KindsAgree(s2.fxs, s.fxs, t);
    Launch(Retarget(s2, t), size, before)
  }

  /** show keeps the invariant and the kind of effect bound to every slide. */
  lemma StagesKeepValid(s: State, target: Target, internal: bool, size: Size, before: (nat, nat) -> bool)
    requires CanShow(s, target)
    ensures var r := Stages(s, target, internal, size, before);
      Valid(r) && SameKinds(r.fxs, s.fxs)
  {
    var t := Resolve(s, target);
    var s2 := CancelRunning(ResetTimer(s, internal));
    Prepared(s, internal);
    KindsAgree(s2.fxs, s.fxs, t);
    var r := Stages(s, target, internal, size, before);
    ShowValid(s2, Retarget(s2, t), r, t, size, before);
    SameKindsTransitive(r.fxs, s2.fxs, s.fxs);
  }

  /** show's effect on the current slide, the event log and the timers. */
  lemma StagesBookkeeping(s: State, target: Target, internal: bool, size: Size, before: (nat, nat) -> bool)
    requires CanShow(s, target)
    ensures var r := Stages(s, target, internal, size, before);
      && r.current == Resolve(s, target) && r.outgoing == s.current
      && r.events == s.events + [ShowEvent(r.current)]
      && (internal || s.interval.None? ==> r.interval == s.interval && r.live == s.live && r.created == s.created)
      && (!internal && s.interval.Some? ==>
            r.interval == Some(s.created) && r.live == s.live - {s.interval.value} + {s.created})
  {
    Prepared(s, internal);
  }

  /** What show leaves displayed. */
  lemma StagesDisplay(s: State, target: Target, internal: bool, size: Size, before: (nat, nat) -> bool)
    requires CanShow(s, target)
    ensures var r := Stages(s, target, internal, size, before);
      && r.current == Resolve(s, target)
      && (forall k :: 0 <= k < |s.styles| && k != s.current && k != r.current ==> r.styles[k].display == Hidden)
      && (s.fxs[r.current].None? ==> Settled(r))
  {
    var t := Resolve(s, target);
    var s2 := CancelRunning(ResetTimer(s, internal));
    Prepared(s, internal);
    KindsAgree(s2.fxs, s.fxs, t);
    ShowValid(s2, Retarget(s2, t), Stages(s, target, internal, size, before), t, size, before);
  }

  /** Whether show runs an effect, and the styles it gives the outgoing and incoming slides. */
  lemma StagesEffect(s: State, target: Target, internal: bool, size: Size, before: (nat, nat) -> bool)
    requires CanShow(s, target)
    ensures var r := Stages(s, target, internal, size, before);
      && |r.styles| == |s.styles| && r.current == Resolve(s, target)
      && (r.fxRunning <==> s.fxs[r.current].Some?)
      && (s.fxs[r.current].None? ==> r.styles[r.current] == Saved)
      && (r.current != s.current && s.fxs[r.current].Some? && !IsTiled(s.fxs[r.current]) ==>
            r.styles[s.current].zIndex == 1)
      && (r.fxRunning && r.current != s.current ==> r.styles[s.current].display == Shown)
      && (!IsTiled(s.fxs[r.current]) ==> r.styles[r.current] == Saved)
      && (IsTiled(s.fxs[r.current]) ==>
            && IsTiled(r.fxs[r.current]) && r.styles[r.current] == Saved.(display := Hidden)
            && r.fxs[r.current].value.m.cursor == 0 && MatrixFx.AllHidden(r.fxs[r.current].value.m.tiles))
  {
    var t := Resolve(s, target);
    var s2 := CancelRunning(ResetTimer(s, internal));
    Prepared(s, internal);
    KindsAgree(s2.fxs, s.fxs, t);
    ShowOutcome(s2, Retarget(s2, t), Stages(s, target, internal, size, before), t, size, before);
  }

  /** Show's first two stages leave a settled state on the same slide, with only the timers changed as promised. */
  lemma Prepared(s: State, internal: bool)
    requires Valid(s)
    ensures var s2 := CancelRunning(ResetTimer(s, internal));
      && Valid(s2) && Settled(s2) && s2.current == s.current && SameKinds(s2.fxs, s.fxs)
      && |s2.styles| == |s.styles| && s2.events == s.events
      && (internal || s.interval.None? ==> s2.interval == s.interval && s2.live == s.live && s2.created == s.created)
      && (!internal && s.interval.Some? ==>
            s2.interval == Some(s.created) && s2.live == s.live - {s.interval.value} + {s.created})
  {
    var s1 := ResetTimer(s, internal);
    assert Valid(s1) && s1.styles == s.styles && s1.fxs == s.fxs && s1.current == s.current && s1.events == s.events;
  }

  /** Two effect lists with the same kinds agree, slide by slide, on having an effect, on its being a matrix effect and on its being startable. */
  lemma KindsAgree(a: seq<Option<Effects.Fx>>, b: seq<Option<Effects.Fx>>, t: nat)
    requires SameKinds(a, b) && t < |a|
    ensures a[t].Some? <==> b[t].Some?
    ensures IsTiled(a[t]) <==> IsTiled(b[t])
    ensures Startable(a[t]) <==> Startable(b[t])
  {
    if a[t].Some? {
      assert Effects.KindOf(a[t].value) == Effects.KindOf(b[t].value);
    }
  }

  lemma SameKindsTransitive(a: seq<Option<Effects.Fx>>, b: seq<Option<Effects.Fx>>, c: seq<Option<Effects.Fx>>)
    requires SameKinds(a, b) && SameKinds(b, c)
    ensures SameKinds(a, c)
  {
  }

  /** The state show ends in keeps the invariant. */
  lemma ShowValid(s2: State, s3: State, r: State, t: nat, size: Size, before: (nat, nat) -> bool)
    requires Valid(s2) && Settled(s2) && t < |s2.styles| && Startable(s2.fxs[t])
    requires s3 == Retarget(s2, t)
    requires r == Launch(s3, size, before)
    ensures Valid(r)
    ensures forall k :: 0 <= k < |s2.styles| && k != s2.current && k != t ==> r.styles[k].display == Hidden
    ensures s2.fxs[t].None? ==> Settled(r)
  {
    if s3.fxs[t].Some? {
      LaunchedValid(s2, s3, r, t, size, before);
    } else {
      CutValid(s2, s3, r, t);
    }
  }

  /** A target with an effect: the effect runs and the invariant holds. */
  lemma LaunchedValid(s2: State, s3: State, r: State, t: nat, size: Size, before: (nat, nat) -> bool)
    requires Valid(s2) && Settled(s2) && t < |s2.styles| && Startable(s2.fxs[t]) && s2.fxs[t].Some?
    requires s3 == Retarget(s2, t)
    requires r == Launch(s3, size, before)
    ensures Valid(r)
    ensures forall k :: 0 <= k < |s2.styles| && k != s2.current && k != t ==> r.styles[k].display == Hidden
  {
    assert TilesValid(r) by {
      forall k | 0 <= k < |r.fxs| && IsTiled(r.fxs[k])
        ensures MatrixFx.Valid(r.fxs[k].value.m)
        ensures if r.fxRunning && k == r.current then MatrixFx.Revealed(r.fxs[k].value.m)
                else MatrixFx.AllHidden(r.fxs[k].value.m.tiles)
      {
        if k != t {
          assert r.fxs[k] == s2.fxs[k];
        }
      }
    }
  }

  /** A target without an effect: fxComplete settles the slides at once. */
  lemma CutValid(s2: State, s3: State, r: State, t: nat)
    requires Valid(s2) && Settled(s2) && t < |s2.styles| && s2.fxs[t].None?
    requires s3 == Retarget(s2, t)
    requires r == FxComplete(s3)
    ensures Valid(r) && Settled(r)
    ensures forall k :: 0 <= k < |s2.styles| && k != s2.current && k != t ==> r.styles[k].display == Hidden
  {
    assert TilesValid(r) by {
      forall k | 0 <= k < |r.fxs| && IsTiled(r.fxs[k])
        ensures MatrixFx.Valid(r.fxs[k].value.m) && MatrixFx.AllHidden(r.fxs[k].value.m.tiles)
      {
        assert r.fxs[k] == s2.fxs[k];
      }
    }
  }

  /** What show's last two stages leave behind, given the settled state of stage 2. */
  lemma ShowOutcome(s2: State, s3: State, r: State, t: nat, size: Size, before: (nat, nat) -> bool)
    requires Shaped(s2) && t < |s2.styles| && Startable(s2.fxs[t])
    requires forall k :: 0 <= k < |s2.fxs| && s2.fxs[k].Some? ==> Effects.Valid(s2.fxs[k].value)
    requires s3 == Retarget(s2, t)
    requires r == Launch(s3, size, before)
    ensures SameKinds(r.fxs, s2.fxs) && r.current == t && r.outgoing == s2.current
    ensures r.events == s2.events + [ShowEvent(t)]
    ensures r.interval == s2.interval && r.live == s2.live && r.created == s2.created
    ensures r.fxRunning <==> s2.fxs[t].Some?
    ensures s2.fxs[t].None? ==> r.styles[t] == Saved
    ensures t != s2.current && s2.fxs[t].Some? && !IsTiled(s2.fxs[t]) ==> r.styles[s2.current].zIndex == 1
    ensures t != s2.current && s2.fxs[t].Some? ==> r.styles[s2.current].display == s2.styles[s2.current].display
    ensures !IsTiled(s2.fxs[t]) ==> r.styles[t] == Saved
    ensures IsTiled(s2.fxs[t]) ==>
              && IsTiled(r.fxs[t]) && r.styles[t] == Saved.(display := Hidden)
              && r.fxs[t].value.m.cursor == 0 && MatrixFx.AllHidden(r.fxs[t].value.m.tiles)
  {
  }

  /** A tick of any live timer: show('next', true). It never restarts a timer. */
  function Tick(s: State, id: nat, size: Size, before: (nat, nat) -> bool): (r: State)
    requires id in s.live && CanShow(s, Named("next"))
    ensures Valid(r)
    ensures r.interval == s.interval && r.live == s.live && r.created == s.created
    ensures r.current == Navigation.Next(|s.styles|, s.current)
  {
    Show(s, Named("next"), true, size, before)
  }

  // ---------------------------------------------------------------- running effect

  /** One frame of the running effect: fx.set(now) with the outgoing slide as `previous`. */
  function Step(s: State, now: real): (r: State)
    requires Valid(s) && s.fxRunning
    ensures Valid(r) && r.fxRunning && SameKinds(r.fxs, s.fxs)
    ensures r == s.(styles := r.styles, fxs := r.fxs)
    ensures forall k :: 0 <= k < |s.styles| ==> r.styles[k].display == s.styles[k].display
    ensures forall k :: 0 <= k < |s.styles| && k != s.current && k != s.outgoing ==> r.styles[k] == s.styles[k]
  {
    var sc := Effects.Apply(s.fxs[s.current].value, s.styles, s.outgoing, s.current, now);
    var r := s.(styles := sc.styles, fxs := s.fxs[s.current := Some(sc.fx)]);
    assert TilesValid(r) by {
      forall k | 0 <= k < |r.fxs| && IsTiled(r.fxs[k])
        ensures MatrixFx.Valid(r.fxs[k].value.m)
        ensures if r.fxRunning && k == r.current then MatrixFx.Revealed(r.fxs[k].value.m)
                else MatrixFx.AllHidden(r.fxs[k].value.m.tiles)
      {
        if k != s.current {
          assert r.fxs[k] == s.fxs[k];
        }
      }
    }
    r
  }

  /**
   * The natural end of the running effect: the last frame fx.set(to), then
   * the 'complete' handlers in the order they were added (the effect's own
   * end, then fxComplete) and the 'chainComplete' handler (end again).
   */
  function Finish(s: State): (r: State)
    requires Valid(s) && s.fxRunning
    ensures Valid(r) && Settled(r) && SameKinds(r.fxs, s.fxs)
    ensures r.current == s.current && r.outgoing == s.outgoing
    ensures r.interval == s.interval && r.live == s.live && r.events == s.events
  {
    var last := Step(s, Effects.To(s.fxs[s.current].value));
    var completed := Settle(last);
    EndAgain(completed);
    RunEnd(completed)
  }

  /** The 'chainComplete' handler runs the effect's end again on settled slides; they stay settled. */
  lemma EndAgain(s: State)
    requires Valid(s) && Settled(s) && s.fxs[s.current].Some?
    ensures var r := RunEnd(s);
      && Valid(r) && Settled(r) && SameKinds(r.fxs, s.fxs)
      && r.current == s.current && r.outgoing == s.outgoing
      && r.interval == s.interval && r.live == s.live && r.events == s.events
  {
    var r := RunEnd(s);
    assert TilesValid(r) by {
      forall k | 0 <= k < |r.fxs| && IsTiled(r.fxs[k])
        ensures MatrixFx.Valid(r.fxs[k].value.m) && MatrixFx.AllHidden(r.fxs[k].value.m.tiles)
      {
        if k != s.current {
          assert r.fxs[k] == s.fxs[k];
        }
      }
    }
  }

  // ---------------------------------------------------------------- properties

  /** No slide is bound to the bare slideBase class. */
  predicate AllStartable(s: State)
  {
    forall k :: 0 <= k < |s.fxs| ==> Startable(s.fxs[k])
  }

  lemma SameKindsKeepStartable(a: seq<Option<Effects.Fx>>, b: seq<Option<Effects.Fx>>)
    requires SameKinds(a, b)
    ensures forall k :: 0 <= k < |a| ==> (Startable(a[k]) <==> Startable(b[k]))
  {
    forall k | 0 <= k < |a|
      ensures Startable(a[k]) <==> Startable(b[k])
    {
      if a[k].Some? {
        assert Effects.KindOf(a[k].value) == Effects.KindOf(b[k].value);
      }
    }
  }

  /** The state after k successive calls show('next'). */
  function ShowNextTimes(s: State, k: nat, internal: bool, size: Size, before: (nat, nat) -> bool): (r: State)
    requires Valid(s) && AllStartable(s)
    ensures Valid(r) && AllStartable(r) && |r.styles| == |s.styles|
    ensures r.current == Navigation.NextTimes(|s.styles|, s.current, k)
    decreases k
  {
    if k == 0 then s
    else
      var prior := ShowNextTimes(s, k - 1, internal, size, before);
      ShowNextStep(prior, internal, size, before);
      Show(prior, Named("next"), internal, size, before)
  }

  /** One show('next') keeps every slide startable and moves to the next slide. */
  lemma ShowNextStep(s: State, internal: bool, size: Size, before: (nat, nat) -> bool)
    requires Valid(s) && AllStartable(s)
    ensures CanShow(s, Named("next"))
    ensures var r := Show(s, Named("next"), internal, size, before);
      Valid(r) && AllStartable(r) && |r.styles| == |s.styles| && r.current == Navigation.Next(|s.styles|, s.current)
  {
    var r := Show(s, Named("next"), internal, size, before);
    SameKindsKeepStartable(r.fxs, s.fxs);
  }

  /** Showing 'next' once per slide comes back to the slide the rotation started from. */
  lemma ShowNextCycle(s: State, internal: bool, size: Size, before: (nat, nat) -> bool)
    requires Valid(s) && AllStartable(s)
    ensures ShowNextTimes(s, |s.styles|, internal, size, before).current == s.current
  {
    Navigation.NextCycle(|s.styles|, s.current);
  }

  /** show('previous') from the first slide lands on the last one. */
  lemma ShowPreviousFromFirst(s: State, internal: bool, size: Size, before: (nat, nat) -> bool)
    requires CanShow(s, Named("previous")) && s.current == 0
    ensures Show(s, Named("previous"), internal, size, before).current == |s.styles| - 1
  {
  }

  /**
   * show does not short-circuit: showing the current slide again fires
   * 'show' and restarts the slide's effect.
   */
  lemma ShowCurrentRestarts(s: State, internal: bool, size: Size, before: (nat, nat) -> bool)
    requires CanShow(s, Element(s.current)) && s.fxs[s.current].Some?
    ensures var r := Show(s, Element(s.current), internal, size, before);
      && r.current == s.current && r.fxRunning && r.events == s.events + [ShowEvent(s.current)]
      && (!IsTiled(s.fxs[s.current]) ==> r.styles[s.current] == Saved)
      && (IsTiled(s.fxs[s.current]) ==>
            && r.styles[s.current] == Saved.(display := Hidden) && IsTiled(r.fxs[s.current])
            && r.fxs[s.current].value.m.cursor == 0 && MatrixFx.AllHidden(r.fxs[s.current].value.m.tiles))
  {
  }

  /**
   * Showing the current slide again with fade or crossFade makes it both the
   * outgoing and the incoming slide. fade's last frame sets its opacity to 0;
   * crossFade sets it to now and then to 1 - now, so the last frame leaves 0.
   * Either way the slide ends displayed but transparent.
   */
  lemma ReshowFadesOut(s: State, internal: bool, size: Size, before: (nat, nat) -> bool)
    requires CanShow(s, Element(s.current)) && s.fxs[s.current].Some?
    requires s.fxs[s.current].value.Fade? || s.fxs[s.current].value.CrossFade?
    ensures var shown := Show(s, Element(s.current), internal, size, before);
      var r := Finish(shown);
      && r.current == s.current && Settled(r)
      && r.styles[s.current].display == Shown && r.styles[s.current].opacity == 0.0
  {
    var shown := Show(s, Element(s.current), internal, size, before);
    assert Effects.KindOf(shown.fxs[s.current].value) == Effects.KindOf(s.fxs[s.current].value);
    var last := Step(shown, Effects.To(shown.fxs[s.current].value));
    assert last.styles[s.current].opacity == 0.0;
    var completed := Settle(last);
    assert completed.styles[s.current] == last.styles[s.current];
  }

  /**
   * Showing the current slide again with a slide effect moves that slide, as
   * the outgoing one, by the extent measured at start: it ends displayed but
   * pushed out of the box by its full width or height.
   */
  lemma ReshowSlidesOut(s: State, internal: bool, size: Size, before: (nat, nat) -> bool)
    requires CanShow(s, Element(s.current)) && s.fxs[s.current].Some? && s.fxs[s.current].value.Slide?
    ensures var r := Finish(Show(s, Element(s.current), internal, size, before));
      var side := s.fxs[s.current].value.side;
      && r.current == s.current && Settled(r) && r.styles[s.current].display == Shown
      && side in r.styles[s.current].offset && r.styles[s.current].offset[side] == Effects.Extent(size, side) as real
  {
    var shown := Show(s, Element(s.current), internal, size, before);
    RemeasuredSlide(s, internal, size, before);
    var last := Step(shown, Effects.To(shown.fxs[s.current].value));
    var completed := Settle(last);
    assert completed.styles[s.current] == last.styles[s.current];
  }

  /** show restarts a slide effect with its extent measured anew. */
  lemma RemeasuredSlide(s: State, internal: bool, size: Size, before: (nat, nat) -> bool)
    requires CanShow(s, Element(s.current)) && s.fxs[s.current].Some? && s.fxs[s.current].value.Slide?
    ensures var side := s.fxs[s.current].value.side;
      Show(s, Element(s.current), internal, size, before).fxs[s.current] == Some(Effects.Slide(side, Effects.Extent(size, side) as real))
  {
    var s2 := CancelRunning(ResetTimer(s, internal));
    Prepared(s, internal);
    KindsAgree(s2.fxs, s.fxs, s.current);
    assert Effects.KindOf(s2.fxs[s.current].value) == Effects.KindOf(s.fxs[s.current].value);
  }

  /**
   * A slide whose class is the single token fx:raw, where raw decodes to the
   * name of an effect the registry does not know, gets no effect, so showing
   * it cuts to it at once: it is displayed in its saved style, every other
   * slide is hidden and no effect runs. The members of the class object
   * (parent, prototype, implement, ...) count as unknown names here; the
   * model does not give them the behaviour they have in the source.
   */
  lemma UnknownEffectCutsInstantly(attributes: seq<string>, defaultFx: string,
                                   decode: string -> Option<ClassOptions.Json>, grids: seq<Effects.Grid>,
                                   size: Size, k: nat, raw: string, name: string, before: (nat, nat) -> bool)
    requires |grids| == |attributes| && k < |attributes| && attributes[k] == "fx:" + raw
    requires raw != "" && ':' !in raw && ' ' !in raw && decode(raw) == Some(ClassOptions.JString(name))
    requires name != "" && name !in Effects.RegisteredNames
    ensures var s := Build(attributes, defaultFx, decode, grids, size);
      && s.fxs[k].None?
      && CanShow(s, Index(k))
      && var r := Show(s, Index(k), false, size, before);
         r.current == k && Settled(r) && r.styles[k] == Saved
  {
    ClassOptions.SingleTokenClass("fx", raw, decode, ClassOptions.JString(name));
    assert "fx" + [':'] + raw == attributes[k];
    var options := ClassOptions.ParseClass(attributes[k], decode);
    assert BoundKind(options, defaultFx).None?;
  }
}

=== FILE: styles.dfy ===
/** The inline style of a slide, as far as the slideshow reads and writes it. */
module Styles {

  /** CSS `display`: `block` or `none`. */
  datatype Display = Shown | Hidden

  /** The CSS offset properties the slide effects move. */
  datatype Side = Top | Right | Bottom | Left

  /**
   * display, z-index, opacity (1 when unset) and the offsets set by the slide
   * effects (absent when unset).
   */
  datatype Style = Style(display: Display, zIndex: int, opacity: real, offset: map<Side, real>)

  /**
   * The style build saves for every slide before hiding the later ones:
   * displayed, z-index 0, no opacity and no offset; `reset` restores it.
   */
  const Saved: Style := Style(Shown, 0, 1.0, map[])
}

=== FILE: wrappers.dfy ===
/** Optional values, used where the slideshow reads an attribute that may be absent. */
module Wrappers {

  datatype Option<+T> = None | Some(value: T)
}
